=== FILE: README.md ===
# The demo page's research simulation, in Dafny

The demo page of a marketing site for a fictitious "research agent" product plays a canned agent run when
the user submits a prompt (`runSimulation` in `src/app/demo/page.tsx`). The
run takes the prompt and adds the user message, then adds an assistant
message that first "thinks" and then shows five research steps. It walks the
steps one by one: each goes pending, then running, then completed. While a
step runs, its sources are appended to the sources panel. When it finishes,
its file is upserted into the files panel. The run ends by streaming a fixed
markdown answer three characters at a time and clearing the streaming and
processing flags.

This project models that behaviour as pure functions over immutable data:

- `Optional` (`option.dfy`): `Option` for the optional fields.
- `Files` (`files.dfy`): file records. `addFile` is an upsert by name that
  puts the new record in front. The file type comes from
  `name.split('.').pop() || 'file'`. `Split` models JavaScript's
  one-character `split`, and `LastPart` models the `pop` of its last part.
  `Join` is not called by the page; it exists as the inverse of `Split` in
  the round-trip lemmas. `AfterLast` is a second, direct definition of "the
  text after the last dot", and it is proved equal to `LastPart`.
- `Sources` (`sources.dfy`): source records and `addSources`.
- `Steps` (`steps.dfy`): step records and the `{ ...step, ...updates }`
  patch. Also the status phases of a run and the fixed five-step script
  `initialSteps`.
- `Chats` (`chats.dfy`): messages and `updateStep`.
- `Streaming` (`streaming.dfy`): the values `streamedContent` takes, the
  answer text `finalResponse`, and `Min` for the chunk length.
- `Simulation` (`simulation.dfy`): the page state and one `Transition` per
  state change. `Apply`, `Run` and `States` execute a sequence of
  transitions. `Script` is the sequence one call of `runSimulation`
  performs. Every `await sleep(...)` becomes a `Pause`, which leaves the
  state unchanged. `Legal` is the "allowed move" relation between two
  consecutive states. The theorems about whole runs are stated in this
  module.

The whole-run theorems (`ScriptRun`, `StepsAdvanceInOrder` and
`ContentStreamsByChunks`) are proved for any step list that starts all
pending and any answer text (`RunScript`). Each of them is then
instantiated for the page's own five steps and answer (`Script`):
- `RunOutcome`, `RunFromEmptyPanels` and `RunFromInitialState` instantiate
  `ScriptRun`;
- `PageStepsAdvanceInOrder` instantiates `StepsAdvanceInOrder`;
- `PageContentStreamsByChunks` instantiates `ContentStreamsByChunks`.

## Model

| member | source | states |
|---|---|---|
| Files.Split | src/app/demo/page.tsx:161 | `split` on one separator returns at least one part, and no part contains the separator |
| Files.SplitCount | src/app/demo/page.tsx:161 | a split has exactly one more part than the string has separators |
| Files.JoinSplit | src/app/demo/page.tsx:161 | joining the parts of a split with the separator gives back the original string |
| Files.SplitJoin | src/app/demo/page.tsx:161 | splitting a join of separator-free parts gives back those parts, so split and join are inverses |
| Files.SplitSeparatorFree | src/app/demo/page.tsx:161 | a separator-free prefix is glued onto the first part of the rest's split |
| Files.LastPart | src/app/demo/page.tsx:161 | definition: `split(sep).pop()`, the last part of the split |
| Files.AfterLast | src/app/demo/page.tsx:161 | definition: the text after the last separator, or the whole string when it has none, read from the end |
| Files.LastPartAfterSeparator | src/app/demo/page.tsx:161 | after the last separator, `pop()` of the split returns exactly the text that follows it |
| Files.LastPartWithoutSeparator | src/app/demo/page.tsx:161 | `pop()` of the split of a separator-free string is the whole string |
| Files.AfterLastSeparatorFree | src/app/demo/page.tsx:161 | the text after the last dot contains no dot |
| Files.AfterLastSuffix | src/app/demo/page.tsx:161 | the text after the last dot is a suffix of the name, and it is either the whole name or directly preceded by a dot |
| Files.AfterLastIsLastPart | src/app/demo/page.tsx:161 | the direct "after the last dot" definition agrees with `split('.').pop()` on every string |
| Files.FileType | src/app/demo/page.tsx:161 | the inferred type is never empty |
| Files.FileTypeIsSplitPop | src/app/demo/page.tsx:161 | the type is the last part of `split('.')`, or `"file"` when that part is empty; it contains no dot |
| Files.FileTypeWithoutDot | src/app/demo/page.tsx:161 | a non-empty name without a dot is its own type |
| Files.FileTypeExtension | src/app/demo/page.tsx:161 | `stem.ext` has type `ext` for every stem, including stems that contain dots |
| Files.FileTypeDefault | src/app/demo/page.tsx:161 | the empty name and names that end in a dot get the fallback type `"file"` |
| Files.WithoutName | src/app/demo/page.tsx:160 | the filter drops exactly as many records as carry the name |
| Files.WithoutNameMembers | src/app/demo/page.tsx:160 | a record survives the filter exactly when it was in the list and has another name |
| Files.WithoutNameKeepsOrder | src/app/demo/page.tsx:160 | the surviving records keep their relative order |
| Files.WithoutNameAppend | src/app/demo/page.tsx:160 | filtering a concatenation concatenates the filtered halves |
| Files.WithoutNameAbsent | src/app/demo/page.tsx:160 | filtering out a name that no record carries changes nothing |
| Files.WithoutNameIdempotent | src/app/demo/page.tsx:160 | filtering twice by a name is the same as filtering once |
| Files.AddFile | src/app/demo/page.tsx:158-163 | the upserted record is first, with the given name and status and the inferred type; the name then occurs exactly once; the length grows by one minus the earlier copies of the name |
| Files.AddFileMembers | src/app/demo/page.tsx:158-163 | behind the new record are exactly the earlier records with other names |
| Files.AddFileTail | src/app/demo/page.tsx:158-163 | behind the new record is the ordered filter of the earlier list |
| Files.AddFileOverrides | src/app/demo/page.tsx:158-163 | a second upsert of the same name replaces the first: only the later status survives |
| Files.AddFileIdempotent | src/app/demo/page.tsx:158-163 | repeating the same upsert changes nothing |
| Files.WithoutNameDistinct | src/app/demo/page.tsx:160 | filtering keeps the names of a list distinct |
| Files.AddFileKeepsNamesDistinct | src/app/demo/page.tsx:158-163 | an upsert of a list whose names are distinct keeps them distinct |
| Sources.AddSources | src/app/demo/page.tsx:165-167 | the earlier sources are kept as a prefix, the new ones follow in order, and the length is the sum |
| Sources.AddSourcesTwice | src/app/demo/page.tsx:165-167 | two additions in a row equal one addition of both lists in that order |
| Steps.ApplyPatch | src/app/demo/page.tsx:150 | each field present in the patch is overwritten; every other field, including the file action, sources and url, is kept |
| Steps.ApplyPatchIdempotent | src/app/demo/page.tsx:150 | applying a patch twice is the same as applying it once |
| Steps.StatusPatchLastWins | src/app/demo/page.tsx:172-187 | a `running` patch followed by a `completed` patch leaves the step as it was, except with the last status |
| Steps.PhaseStart | src/app/demo/page.tsx:172 | starting the lowest pending step moves phase (k, idle) to phase (k, running) |
| Steps.PhaseComplete | src/app/demo/page.tsx:187 | completing the running step moves phase (k, running) to phase (k + 1, idle) |
| Steps.SourcesOfAppend | src/app/demo/page.tsx:175-177 | the sources of two step lists in sequence are the sources of the first followed by those of the second |
| Steps.InitialSteps | src/app/demo/page.tsx:89-135 | definition: the five scripted steps, with their ids, titles, subtexts, file actions, sources s1 to s6, and status pending |
| Steps.InitialStepsShape | src/app/demo/page.tsx:89-135 | the script has five steps, all pending, whose sources are s1 to s6 in step order |
| Steps.InitialFileActions | src/app/demo/page.tsx:89-135 | the five file actions of the script, in step order |
| Chats.UpdateStep | src/app/demo/page.tsx:144-156 | only step `index` of message `m` changes, and it changes by the patch; other messages, other steps and the message's other fields are untouched; a missing message or one without steps leaves the transcript as it was |
| Chats.UpdateStepStatus | src/app/demo/page.tsx:144-156 | a status patch changes exactly one entry of the message's status list |
| Chats.UpdateStepOnlyStatus | src/app/demo/page.tsx:144-156 | a status patch changes only the status field of the addressed step |
| Streaming.Streamed | src/app/demo/page.tsx:208-217 | the loop produces one value per started chunk of the remaining text |
| Streaming.StreamedPrefixes | src/app/demo/page.tsx:208-217 | the `k`-th value is the prefix of the text that ends at chunk `k` |
| Streaming.StreamGrowsByChunks | src/app/demo/page.tsx:208-217 | every value is a prefix of the text and grows by `min(3, remaining)` characters; the first holds the first chunk and the last is the whole text; an empty text streams nothing |
| Simulation.InitialState | src/app/demo/page.tsx:53-58 | definition: the page as it opens: the default prompt, empty chats, files and sources, and not processing |
| Simulation.Apply | src/app/demo/page.tsx:71-224 | definition: the effect of each state change of the run. A pause changes nothing; `Begin` is lines 71-83; `Reveal` is 138-142; `Patch` is `updateStep`; `AppendSources` is `addSources`; `UpsertFile` is `addFile`; `ShowContent` is 211-215; `EndStreaming` is 219-223; `Finish` is 224 |
| Simulation.FileStatusOf | src/app/demo/page.tsx:184 | definition: a `created` action gives the status `new`, and an `updated` action gives `updated` |
| Simulation.Opening | src/app/demo/page.tsx:71-142 | definition: take the prompt and add the two messages, think (a pause), then reveal the steps |
| Simulation.Iteration | src/app/demo/page.tsx:170-189 | definition: one loop turn in source order: patch to running, add the sources if any, pause, upsert the file if any, patch to completed, pause |
| Simulation.StepLoop | src/app/demo/page.tsx:170-189 | definition: the loop turns for steps `i` to the last, in index order |
| Simulation.StreamLoop | src/app/demo/page.tsx:208-217 | definition: for each streamed value, show it and pause |
| Simulation.Closing | src/app/demo/page.tsx:219-224 | definition: stop streaming the message, then stop processing |
| Simulation.RunScript | src/app/demo/page.tsx:68-225 | definition: nothing for an empty prompt; otherwise the opening, the step loop, the streaming of the answer, and the close, addressed to the message at index `|chats| + 1` |
| Simulation.Script | src/app/demo/page.tsx:68-225 | definition: `RunScript` with the page's own five steps and its answer |
| Simulation.UpsertStepsKeepsNamesDistinct | src/app/demo/page.tsx:182-185 | any sequence of step file actions keeps file names distinct |
| Simulation.StartStep | src/app/demo/page.tsx:172 | for a script whose steps all start pending, when message m holds it with steps 0 to i - 1 completed and step i and every later step pending, and its text is a prefix of the answer, the `running` patch applies, is a legal move, and marks step i running while changing nothing else |
| Simulation.FinishStep | src/app/demo/page.tsx:187 | for a script whose steps all start pending, when message m holds it with steps 0 to i - 1 completed, step i running and every later step pending, and its text is a prefix of the answer, the `completed` patch applies, is a legal move, and leaves steps 0 to i completed while changing nothing else |
| Simulation.IterationRun | src/app/demo/page.tsx:170-189 | one turn of the loop completes step i, appends its sources, applies its file action, changes nothing else, and every move is legal |
| Simulation.StepLoopRun | src/app/demo/page.tsx:170-189 | the loop from step i completes every remaining step, appends their sources in order, upserts their files in order, and every move is legal |
| Simulation.StreamLoopRun | src/app/demo/page.tsx:208-217 | the streaming loop sets the assistant text value by value, touches nothing else, and ends at the last value |
| Simulation.OpeningRun | src/app/demo/page.tsx:71-142 | the opening clears the prompt, sets processing, and adds the user message and an assistant message that shows the pending steps with empty text |
| Simulation.ClosingRun | src/app/demo/page.tsx:219-224 | the close clears the message's streaming flag and the processing flag and nothing else |
| Simulation.EmptyPromptChangesNothing | src/app/demo/page.tsx:69 | with an empty prompt the run performs no transition and leaves the state unchanged |
| Simulation.LoopAfterOpening | src/app/demo/page.tsx:170-189 | over the freshly revealed assistant message, the loop completes every step, appends all the sources in order and upserts all the files in order, all by legal moves |
| Simulation.WorkRun | src/app/demo/page.tsx:68-189 | after the opening and the step loop, every step is completed, the panels are filled, and the assistant text is still empty |
| Simulation.AnswerRun | src/app/demo/page.tsx:208-224 | streaming then closing shows the whole answer and clears both flags |
| Simulation.ScriptRun | src/app/demo/page.tsx:68-225 | from any state with a non-empty prompt, every transition is enabled and every move is legal; the final state has the prompt cleared, processing over and the earlier messages untouched; they are followed by the prompt and the full answer with all steps completed; the sources and files are extended in step order |
| Simulation.LegalStatuses | src/app/demo/page.tsx:170-189 | along a legal run, the step statuses only stay, appear all pending, or advance by one step |
| Simulation.LegalContents | src/app/demo/page.tsx:208-217 | along a legal run, the message text stays a prefix of the answer and grows one chunk at a time |
| Simulation.AssistantIndex | src/app/demo/page.tsx:76-77 | definition: the assistant message's index, `newChats.length`, which is one past the new user message |
| Simulation.StepsAdvance | src/app/demo/page.tsx:170-189 | definition: along a run, the steps of one message start absent, change only by allowed status moves, and end all completed |
| Simulation.StreamsByChunks | src/app/demo/page.tsx:208-223 | definition: along a run, one message's text is always a prefix of the answer, grows one chunk at a time, and ends as the whole answer with streaming off |
| Simulation.StepsAdvanceInOrder | src/app/demo/page.tsx:170-189 | over a whole run the steps start with no statuses, then advance pending to running to completed one at a time in index order, and end all completed |
| Simulation.ContentStreamsByChunks | src/app/demo/page.tsx:208-223 | over a whole run the assistant text is always a prefix of the answer and grows by `min(3, remaining)` characters; it ends as the whole answer with streaming off |
| Simulation.PageStepsAdvanceInOrder | src/app/demo/page.tsx:170-189 | in the page's own run, the five scripted steps go pending, then running, then completed, one at a time and in index order |
| Simulation.PageContentStreamsByChunks | src/app/demo/page.tsx:208-223 | in the page's own run, the assistant text is always a prefix of `finalResponse`, grows by `min(3, remaining)` characters, and ends as the whole answer with streaming off |
| Simulation.RunOutcome | src/app/demo/page.tsx:68-225 | the page's own run ends with the five steps completed, the whole answer shown, their sources appended and their files upserted |
| Simulation.UpsertFive | src/app/demo/page.tsx:170-189 | five actions (create a, create b, update b, create c, create d) leave d, c, b (updated) and a, newest first |
| Simulation.ScriptedFileTypes | src/app/demo/page.tsx:161 | the four scripted file names get the types csv, csv, csv and md |
| Simulation.ScriptedFiles | src/app/demo/page.tsx:89-189 | from an empty panel the script leaves Market Research.md (new), user-reviews.csv (new), Competitor-products.csv (updated) and Competitors.csv (new) |
| Simulation.RunFromEmptyPanels | src/app/demo/page.tsx:89-189 | from empty panels a run shows sources s1 to s6 in order and exactly the four files above |
| Simulation.RunFromInitialState | src/app/demo/page.tsx:53-225 | from the page as it opens, a run leaves the default prompt as a user message followed by the completed answer |

## Left out

- Timing. `sleep`, `setTimeout` and the `Math.random()` jitter become the `Pause` transition, which changes nothing. Only the order of state changes is modelled, not delays.
- React itself. `useState` batching, functional updates, re-renders, `useEffect` auto-scroll and the JSX (`StepItem`, the panels, `cn`, framer-motion, ReactMarkdown) are out of scope. Each `set...` call is applied immediately and in program order.
- Input handling. The handlers that call `runSimulation` (lines 358-363) only call it while nothing is processing. The model does not model the event handlers or overlapping runs.
- Chats.UpdateStep: requires the step index to be in range when the addressed message has steps. With an index equal to the length, the source appends a bare step that holds only the patched fields and has no id, title or subtext. With a larger index, the array gets holes. The loop only passes the indices 0 to 4, so neither case arises.
- Steps.ApplyPatch: patches cover only `id`, `title`, `subtext` and `status`. The simulation patches only `status`, and `Partial<ProcessStep>` patches of `fileAction`, `sourceAction` or `url` are not modelled.
- Optional booleans. An absent `isStreaming` or `isThinking` is modelled as `false`, and the rendering makes no distinction between the two.
- Unused fields. The source icon and the file `content` field are never set by the simulation and are not kept.
- The `'existing'` file status exists as a constructor, but nothing in the simulation produces it.
- `.trim()` is not modelled as an operation: the answer constant is written in its trimmed form. The JavaScript `length` counts UTF-16 code units, while the model counts characters; these are the same for this ASCII answer.
- Source title s5 is kept exactly as the file's text holds it: four characters of a mis-encoded emoji.
- The other pages of the site (`src/app/page.tsx`, the pricing and scroll-animation components) are not part of this model.

=== FILE: chats.dfy ===
/**
 * The chat transcript of the demo page: messages and `updateStep`, which
 * patches one step of the assistant message by index.
 */
module Chats {
  import opened Optional
  import opened Steps

  datatype Role = User | Assistant

  /** A chat message; an absent `isStreaming` or `isThinking` flag reads as false. */
  datatype Message = Message(
    role: Role,
    content: string,
    steps: Option<seq<Step>>,
    isStreaming: bool,
    isThinking: bool)

  /**
   * What `updateStep` needs of its caller: when the addressed message has
   * steps, the index names one of them.
   */
  predicate StepIndexOk(chats: seq<Message>, m: nat, index: nat)
  {
    m < |chats| && chats[m].steps.Some? ==> index < |chats[m].steps.value|
  }

  /**
   * `updateStep(index, updates)` on the message at position `m`: when it has
   * steps, step `index` is patched and everything else is copied; otherwise
   * the transcript comes back as it was.
   */
  function UpdateStep(chats: seq<Message>, m: nat, index: nat, patch: StepPatch): (r: seq<Message>)
    requires StepIndexOk(chats, m, index)
    ensures |r| == |chats|
    ensures forall j :: 0 <= j < |chats| && j != m ==> r[j] == chats[j]
    ensures m >= |chats| || chats[m].steps.None? ==> r == chats
    ensures m < |chats| && chats[m].steps.Some? ==>
      var before := chats[m].steps.value;
      && r[m].steps.Some?
      && |r[m].steps.value| == |before|
      && r[m].steps.value[index] == ApplyPatch(before[index], patch)
      && (forall k :: 0 <= k < |before| && k != index ==> r[m].steps.value[k] == before[k])
      && r[m].(steps := None) == chats[m].(steps := None)
  {
    if m < |chats| && chats[m].steps.Some? then
      var steps := chats[m].steps.value;
      chats[m := chats[m].(steps := Some(steps[index := ApplyPatch(steps[index], patch)]))]
    else
      chats
  }

  /** The statuses of the steps of message `m`; empty when it is missing or has no steps. */
  function StatusesAt(chats: seq<Message>, m: nat): seq<Status>
  {
    if m < |chats| && chats[m].steps.Some? then Statuses(chats[m].steps.value) else []
  }

  /** A status patch changes exactly one entry of the message's status list. */
  lemma UpdateStepStatus(chats: seq<Message>, m: nat, index: nat, s: Status)
    requires m < |chats| && chats[m].steps.Some?
    requires index < |chats[m].steps.value|
    ensures StatusesAt(UpdateStep(chats, m, index, StatusPatch(s)), m) == StatusesAt(chats, m)[index := s]
  {
  }

  /** A status patch leaves every other field of every step alone. */
  lemma UpdateStepOnlyStatus(chats: seq<Message>, m: nat, index: nat, s: Status)
    requires m < |chats| && chats[m].steps.Some?
    requires index < |chats[m].steps.value|
    ensures var r := UpdateStep(chats, m, index, StatusPatch(s));
      r == chats[m := chats[m].(steps := Some(chats[m].steps.value[index := chats[m].steps.value[index].(status := s)]))]
  {
  }
}

=== FILE: files.dfy ===
/**
 * The generated-files panel of the demo page: file records, the file type
 * inferred from a file name (JavaScript's `name.split('.').pop() || 'file'`)
 * and the upsert-by-name performed by `addFile`.
 */
module Files {

  datatype FileStatus = New | Updated | Existing

  /** A generated file: its name, the type inferred from the name, and its status. */
  datatype FileRecord = FileRecord(name: string, kind: string, status: FileStatus)

  // ---------------------------------------------------------------------------
  // String.prototype.split with a one-character separator, and its inverse
  // ---------------------------------------------------------------------------

  /**
   * `s.split(sep)`: the maximal runs of `s` between occurrences of `sep`,
   * empty runs included, so there is always one more part than separators.
   */
  function Split(s: string, sep: char): (parts: seq<string>)
    ensures |parts| >= 1
    ensures forall k :: 0 <= k < |parts| ==> sep !in parts[k]
  {
    if s == [] then [[]]
    else
      assert s == [s[0]] + s[1..];
      var rest := Split(s[1..], sep);
      if s[0] == sep then [[]] + rest
      else [[s[0]] + rest[0]] + rest[1..]
  }

  /** `parts.join(sep)`: the parts with one separator between neighbours. */
  function Join(parts: seq<string>, sep: char): string
    requires |parts| >= 1
  {
    if |parts| == 1 then parts[0] else parts[0] + [sep] + Join(parts[1..], sep)
  }

  /** There is one more part than there are separators. */
  lemma {:induction false} SplitCount(s: string, sep: char)
    ensures |Split(s, sep)| == multiset(s)[sep] + 1
  {
    if s != [] {
      SplitCount(s[1..], sep);
      assert s == [s[0]] + s[1..];
      assert multiset(s) == multiset([s[0]]) + multiset(s[1..]);
    }
  }

  /** Joining the parts of a split gives back the string. */
  lemma {:induction false} JoinSplit(s: string, sep: char)
    ensures Join(Split(s, sep), sep) == s
  {
    if s != [] {
      var rest := Split(s[1..], sep);
      JoinSplit(s[1..], sep);
      assert s == [s[0]] + s[1..];
      if s[0] == sep {
        assert ([[]] + rest)[1..] == rest;
        assert Join([[]] + rest, sep) == [] + [sep] + Join(rest, sep);
      } else if |rest| == 1 {
        assert Join(rest, sep) == rest[0];
      } else {
        var parts := [[s[0]] + rest[0]] + rest[1..];
        assert parts[1..] == rest[1..];
        var tail := Join(rest[1..], sep);
        assert Join(parts, sep) == [s[0]] + rest[0] + [sep] + tail;
        assert Join(rest, sep) == rest[0] + [sep] + tail;
        assert [s[0]] + rest[0] + [sep] + tail == [s[0]] + (rest[0] + [sep] + tail);
      }
    }
  }

  /** Splitting `p + t` when `p` holds no separator glues `p` to the first part of `t`. */
  lemma {:induction false} SplitSeparatorFree(p: string, t: string, sep: char)
    requires sep !in p
    ensures Split(p + t, sep) == [p + Split(t, sep)[0]] + Split(t, sep)[1..]
  {
    if p != [] {
      assert (p + t)[1..] == p[1..] + t;
      assert (p + t)[0] == p[0];
      SplitSeparatorFree(p[1..], t, sep);
      assert [p[0]] + (p[1..] + Split(t, sep)[0]) == p + Split(t, sep)[0];
    } else {
      var parts := Split(t, sep);
      assert p + t == t && p + parts[0] == parts[0];
      assert parts == [parts[0]] + parts[1..];
    }
  }

  /** Splitting a join of separator-free parts gives back the parts. */
  lemma {:induction false} SplitJoin(parts: seq<string>, sep: char)
    requires |parts| >= 1
    requires forall k :: 0 <= k < |parts| ==> sep !in parts[k]
    ensures Split(Join(parts, sep), sep) == parts
  {
    if |parts| == 1 {
      SplitSeparatorFree(parts[0], [], sep);
      assert parts[0] + [] == parts[0];
    } else {
      var tail := Join(parts[1..], sep);
      SplitJoin(parts[1..], sep);
      assert parts[0] + [sep] + tail == parts[0] + ([sep] + tail);
      SplitSeparatorFree(parts[0], [sep] + tail, sep);
      assert ([sep] + tail)[1..] == tail;
      assert Split([sep] + tail, sep) == [[]] + parts[1..];
      assert parts[0] + [] == parts[0];
      assert [parts[0]] + parts[1..] == parts;
    }
  }

  /** Appending one more part appends one separator and that part. */
  lemma {:induction false} JoinAppend(parts: seq<string>, t: string, sep: char)
    requires |parts| >= 1
    ensures Join(parts + [t], sep) == Join(parts, sep) + [sep] + t
  {
    if |parts| > 1 {
      assert (parts + [t])[1..] == parts[1..] + [t];
      JoinAppend(parts[1..], t, sep);
    }
  }

  /** `Array.prototype.pop()` on a split: its last part. */
  function LastPart(s: string, sep: char): string
  {
    var parts := Split(s, sep);
    parts[|parts| - 1]
  }

  /** The last part of `p + sep + t` is `t` whenever `t` holds no separator. */
  lemma LastPartAfterSeparator(p: string, t: string, sep: char)
    requires sep !in t
    ensures LastPart(p + [sep] + t, sep) == t
  {
    var parts := Split(p, sep);
    JoinSplit(p, sep);
    JoinAppend(parts, t, sep);
    SplitJoin(parts + [t], sep);
  }

  /** A string without the separator is its own (only) part. */
  lemma LastPartWithoutSeparator(s: string, sep: char)
    requires sep !in s
    ensures Split(s, sep) == [s]
    ensures LastPart(s, sep) == s
  {
    SplitJoin([s], sep);
  }

  // ---------------------------------------------------------------------------
  // The file type of a name
  // ---------------------------------------------------------------------------

  /** The text after the last `sep` of `s`, or all of `s` when it has none. */
  function AfterLast(s: string, sep: char): string
  {
    if s == [] then []
    else if s[|s| - 1] == sep then []
    else AfterLast(s[..|s| - 1], sep) + [s[|s| - 1]]
  }

  /** `AfterLast` holds no separator. */
  lemma {:induction false} AfterLastSeparatorFree(s: string, sep: char)
    ensures sep !in AfterLast(s, sep)
  {
    if s != [] && s[|s| - 1] != sep {
      AfterLastSeparatorFree(s[..|s| - 1], sep);
    }
  }

  /** `AfterLast` is a suffix that is either all of `s` or preceded by a separator. */
  lemma {:induction false} AfterLastSuffix(s: string, sep: char)
    ensures |AfterLast(s, sep)| <= |s|
    ensures AfterLast(s, sep) == s[|s| - |AfterLast(s, sep)|..]
    ensures |AfterLast(s, sep)| < |s| ==> s[|s| - |AfterLast(s, sep)| - 1] == sep
  {
    if s != [] && s[|s| - 1] != sep {
      var p := s[..|s| - 1];
      AfterLastSuffix(p, sep);
      var t := AfterLast(p, sep);
      var c := s[|s| - 1];
      assert AfterLast(s, sep) == t + [c];
      assert s == p + [c];
      assert s[|p| - |t|..] == p[|p| - |t|..] + [c];
      if |t| < |p| {
        assert s[|p| - |t| - 1] == p[|p| - |t| - 1];
      }
    }
  }

  /** `AfterLast` is what `split` followed by `pop` returns. */
  lemma AfterLastIsLastPart(s: string, sep: char)
    ensures AfterLast(s, sep) == LastPart(s, sep)
  {
    AfterLastSuffix(s, sep);
    AfterLastSeparatorFree(s, sep);
    var t := AfterLast(s, sep);
    if |t| == |s| {
      assert t == s;
      LastPartWithoutSeparator(s, sep);
    } else {
      var p := s[..|s| - |t| - 1];
      assert s == p + [sep] + t;
      LastPartAfterSeparator(p, t, sep);
    }
  }

  /** `name.split('.').pop() || 'file'`: the text after the last dot, or `"file"` when that is empty. */
  function FileType(name: string): (r: string)
    ensures r != []
  {
    var last := AfterLast(name, '.');
    if last == "" then "file" else last
  }

  /** The type is the last part of the split name, or `"file"` when that part is empty. */
  lemma FileTypeIsSplitPop(name: string)
    ensures FileType(name) == (if LastPart(name, '.') == "" then "file" else LastPart(name, '.'))
    ensures '.' !in FileType(name)
  {
    AfterLastIsLastPart(name, '.');
    AfterLastSeparatorFree(name, '.');
  }

  /** A name without a dot is its own type. */
  lemma FileTypeWithoutDot(name: string)
    requires name != "" && '.' !in name
    ensures FileType(name) == name
  {
    LastPartWithoutSeparator(name, '.');
    AfterLastIsLastPart(name, '.');
  }

  /** The type of `stem.ext` is `ext` when `ext` is non-empty and dot-free, whatever `stem` holds. */
  lemma FileTypeExtension(stem: string, ext: string)
    requires ext != "" && '.' !in ext
    ensures FileType(stem + "." + ext) == ext
  {
    LastPartAfterSeparator(stem, ext, '.');
    AfterLastIsLastPart(stem + "." + ext, '.');
  }

  /** The empty name and a name ending in a dot have the type `"file"`. */
  lemma FileTypeDefault(name: string)
    requires name == "" || name[|name| - 1] == '.'
    ensures FileType(name) == "file"
  {
  }

  // ---------------------------------------------------------------------------
  // Upsert by name
  // ---------------------------------------------------------------------------

  /** How many records carry the name. */
  function NameCount(files: seq<FileRecord>, name: string): nat
  {
    if files == [] then 0
    else (if files[0].name == name then 1 else 0) + NameCount(files[1..], name)
  }

  /** `files.filter(f => f.name !== name)`. */
  function WithoutName(files: seq<FileRecord>, name: string): (r: seq<FileRecord>)
    ensures |r| == |files| - NameCount(files, name)
  {
    if files == [] then []
    else (if files[0].name == name then [] else [files[0]]) + WithoutName(files[1..], name)
  }

  /** The filter keeps exactly the records with another name. */
  lemma {:induction false} WithoutNameMembers(files: seq<FileRecord>, name: string)
    ensures forall f :: f in WithoutName(files, name) ==> f in files && f.name != name
    ensures forall f :: f in files && f.name != name ==> f in WithoutName(files, name)
  {
    if files != [] {
      WithoutNameMembers(files[1..], name);
      assert files == [files[0]] + files[1..];
    }
  }

  /** `xs` is `ys` with some elements dropped, the rest kept in their order. */
  predicate Subsequence<T(==)>(xs: seq<T>, ys: seq<T>)
  {
    if xs == [] then true
    else if ys == [] then false
    else if xs[0] == ys[0] then Subsequence(xs[1..], ys[1..])
    else Subsequence(xs, ys[1..])
  }

  /** Filtering keeps the surviving records in their original relative order. */
  lemma {:induction false} WithoutNameKeepsOrder(files: seq<FileRecord>, name: string)
    ensures Subsequence(WithoutName(files, name), files)
  {
    if files != [] {
      WithoutNameKeepsOrder(files[1..], name);
      var rest := WithoutName(files[1..], name);
      if files[0].name != name {
        assert WithoutName(files, name) == [files[0]] + rest;
        assert ([files[0]] + rest)[1..] == rest;
      } else {
        assert WithoutName(files, name) == rest;
        if rest != [] {
          WithoutNameMembers(files[1..], name);
          assert rest[0] in rest;
        }
      }
    }
  }

  /** Filtering distributes over concatenation, so it never reorders across a boundary. */
  lemma {:induction false} WithoutNameAppend(a: seq<FileRecord>, b: seq<FileRecord>, name: string)
    ensures WithoutName(a + b, name) == WithoutName(a, name) + WithoutName(b, name)
  {
    if a != [] {
      assert (a + b)[0] == a[0];
      assert (a + b)[1..] == a[1..] + b;
      WithoutNameAppend(a[1..], b, name);
    } else {
      assert a + b == b;
    }
  }

  /** Dropping a name no record carries changes nothing. */
  lemma {:induction false} WithoutNameAbsent(files: seq<FileRecord>, name: string)
    requires forall k :: 0 <= k < |files| ==> files[k].name != name
    ensures WithoutName(files, name) == files
  {
    if files != [] {
      WithoutNameAbsent(files[1..], name);
      assert files == [files[0]] + files[1..];
    }
  }

  /** Filtering twice by the same name is filtering once. */
  lemma WithoutNameIdempotent(files: seq<FileRecord>, name: string)
    ensures WithoutName(WithoutName(files, name), name) == WithoutName(files, name)
  {
    var rest := WithoutName(files, name);
    WithoutNameMembers(files, name);
    forall k | 0 <= k < |rest|
      ensures rest[k].name != name
    {
      assert rest[k] in rest;
    }
    WithoutNameAbsent(rest, name);
  }

  /**
   * `addFile(name, status)`: drop every record with that name, then put a
   * fresh record at the front.
   */
  function AddFile(files: seq<FileRecord>, name: string, status: FileStatus): (r: seq<FileRecord>)
    ensures |r| >= 1
    ensures |r| == |files| - NameCount(files, name) + 1
    ensures r[0].name == name && r[0].status == status && r[0].kind == FileType(name)
    ensures NameCount(r, name) == 1
  {
    var rest := WithoutName(files, name);
    var r := [FileRecord(name, FileType(name), status)] + rest;
    assert r[1..] == rest;
    WithoutNameMembers(files, name);
    NoNameLeft(rest, name);
    r
  }

  /** After an upsert the records behind the new one are exactly the prior records with another name. */
  lemma AddFileMembers(files: seq<FileRecord>, name: string, status: FileStatus)
    ensures forall f :: f in AddFile(files, name, status)[1..] ==> f in files && f.name != name
    ensures forall f :: f in files && f.name != name ==> f in AddFile(files, name, status)[1..]
  {
    AddFileTail(files, name, status);
    WithoutNameMembers(files, name);
  }

  /** A list without the name counts it zero times. */
  lemma {:induction false} NoNameLeft(files: seq<FileRecord>, name: string)
    requires forall f :: f in files ==> f.name != name
    ensures NameCount(files, name) == 0
  {
    if files != [] {
      assert files[0] in files;
      assert forall f :: f in files[1..] ==> f in files;
      NoNameLeft(files[1..], name);
    }
  }

  /** The tail of an upsert is the ordered filter of the prior list. */
  lemma AddFileTail(files: seq<FileRecord>, name: string, status: FileStatus)
    ensures AddFile(files, name, status)[1..] == WithoutName(files, name)
    ensures Subsequence(AddFile(files, name, status)[1..], files)
  {
    var rest := WithoutName(files, name);
    assert ([FileRecord(name, FileType(name), status)] + rest)[1..] == rest;
    WithoutNameKeepsOrder(files, name);
  }

  /** A later upsert of the same name replaces the earlier one: only the last status survives. */
  lemma AddFileOverrides(files: seq<FileRecord>, name: string, s1: FileStatus, s2: FileStatus)
    ensures AddFile(AddFile(files, name, s1), name, s2) == AddFile(files, name, s2)
  {
    var once := AddFile(files, name, s1);
    var rest := WithoutName(files, name);
    assert once[0].name == name && once[1..] == rest;
    assert WithoutName(once, name) == WithoutName(rest, name);
    WithoutNameIdempotent(files, name);
  }

  /** Upserting the same name and status twice is the same as once. */
  lemma AddFileIdempotent(files: seq<FileRecord>, name: string, status: FileStatus)
    ensures AddFile(AddFile(files, name, status), name, status) == AddFile(files, name, status)
  {
    AddFileOverrides(files, name, status, status);
  }

  /** No two records share a name. */
  predicate DistinctNames(files: seq<FileRecord>)
  {
    forall i, j :: 0 <= i < j < |files| ==> files[i].name != files[j].name
  }

  /** Putting a record in front of a list keeps its names distinct when the new name is absent. */
  lemma PrependDistinct(f: FileRecord, files: seq<FileRecord>)
    requires DistinctNames(files)
    requires forall g :: g in files ==> g.name != f.name
    ensures DistinctNames([f] + files)
  {
  }

  /** In a list with distinct names the head's name occurs nowhere in the tail. */
  lemma HeadNameUnique(files: seq<FileRecord>)
    requires |files| > 0 && DistinctNames(files)
    ensures forall g :: g in files[1..] ==> g.name != files[0].name
  {
  }

  /** A filter of a list with distinct names still has distinct names. */
  lemma {:induction false} WithoutNameDistinct(files: seq<FileRecord>, name: string)
    requires DistinctNames(files)
    ensures DistinctNames(WithoutName(files, name))
  {
    if files != [] {
      assert DistinctNames(files[1..]);
      WithoutNameDistinct(files[1..], name);
      if files[0].name != name {
        HeadNameUnique(files);
        WithoutNameMembers(files[1..], name);
        PrependDistinct(files[0], WithoutName(files[1..], name));
      }
    }
  }

  /** Upserting keeps the names of the list distinct, whatever name is upserted. */
  lemma AddFileKeepsNamesDistinct(files: seq<FileRecord>, name: string, status: FileStatus)
    requires DistinctNames(files)
    ensures DistinctNames(AddFile(files, name, status))
  {
    WithoutNameDistinct(files, name);
    WithoutNameMembers(files, name);
    PrependDistinct(FileRecord(name, FileType(name), status), WithoutName(files, name));
  }
}

=== FILE: option.dfy ===
/** The optional fields of the demo's records (`field?: T` in TypeScript). */
module Optional {

  /** `None` stands for a field that is absent or `undefined`. */
  datatype Option<+T> = None | Some(value: T)
}

=== FILE: simulation.dfy ===
/**
 * `runSimulation` of the demo page as a state machine. The page state is the
 * prompt input, the chat transcript, the generated files, the sources and the
 * "processing" flag; every state change the simulation makes is one
 * `Transition`, and every `await sleep(...)` is a `Pause` that leaves the
 * state as it is, so only the order of the changes matters.
 */
module Simulation {
  import opened Optional
  import opened Sources
  import opened Steps
  import opened Chats
  import opened Streaming
  import Files

  datatype DemoState = DemoState(
    message: string,
    chats: seq<Message>,
    files: seq<Files.FileRecord>,
    sources: seq<Source>,
    processing: bool)

  /** The prompt the input box holds when the page opens. */
  const DefaultPrompt: string :=
    "Who are my competitors & tell me about their products & what others think of them."

  /** The page as it opens: the default prompt and three empty panels. */
  function InitialState(): DemoState
  {
    DemoState(DefaultPrompt, [], [], [], false)
  }

  datatype Transition =
    | Pause                                            // a sleep; no state change
    | Begin                                            // mark processing, take the prompt, add user and thinking assistant
    | Reveal(msg: nat, steps: seq<Step>)               // assistant stops thinking, shows its steps, starts streaming
    | Patch(msg: nat, index: nat, patch: StepPatch)    // updateStep
    | AppendSources(found: seq<Source>)                // addSources
    | UpsertFile(name: string, status: Files.FileStatus) // addFile
    | ShowContent(msg: nat, content: string)           // one streamed value
    | EndStreaming(msg: nat)                           // isStreaming: false
    | Finish                                           // setIsProcessing(false)

  /** A transition may fire when the message (and step) it addresses exists. */
  predicate Enabled(st: DemoState, t: Transition)
  {
    match t
    case Reveal(msg, _) => msg < |st.chats|
    case Patch(msg, index, _) => StepIndexOk(st.chats, msg, index)
    case ShowContent(msg, _) => msg < |st.chats|
    case EndStreaming(msg) => msg < |st.chats|
    case _ => true
  }

  function UserMessage(text: string): Message
  {
    Message(User, text, None, false, false)
  }

  /** The effect of one transition on the page state. */
  function Apply(st: DemoState, t: Transition): DemoState
    requires Enabled(st, t)
  {
    match t
    case Pause => st
    case Begin =>
      st.(processing := true, message := "",
          chats := st.chats + [UserMessage(st.message), Message(Assistant, "", None, false, true)])
    case Reveal(msg, steps) =>
      st.(chats := st.chats[msg := st.chats[msg].(isThinking := false, steps := Some(steps), isStreaming := true)])
    case Patch(msg, index, patch) => st.(chats := UpdateStep(st.chats, msg, index, patch))
    case AppendSources(found) => st.(sources := AddSources(st.sources, found))
    case UpsertFile(name, status) => st.(files := Files.AddFile(st.files, name, status))
    case ShowContent(msg, content) => st.(chats := st.chats[msg := st.chats[msg].(content := content)])
    case EndStreaming(msg) => st.(chats := st.chats[msg := st.chats[msg].(isStreaming := false)])
    case Finish => st.(processing := false)
  }

  /** Every transition of `ts` is enabled when its turn comes. */
  predicate Runs(st: DemoState, ts: seq<Transition>)
    decreases |ts|
  {
    ts == [] || (Enabled(st, ts[0]) && Runs(Apply(st, ts[0]), ts[1..]))
  }

  /** The state after all of `ts`. */
  function Run(st: DemoState, ts: seq<Transition>): DemoState
    requires Runs(st, ts)
    decreases |ts|
  {
    if ts == [] then st else Run(Apply(st, ts[0]), ts[1..])
  }

  /** The state before `ts` and after each of its transitions. */
  function States(st: DemoState, ts: seq<Transition>): (ss: seq<DemoState>)
    requires Runs(st, ts)
    ensures |ss| == |ts| + 1 && ss[0] == st
    decreases |ts|
  {
    [st] + (if ts == [] then [] else States(Apply(st, ts[0]), ts[1..]))
  }

  // ---------------------------------------------------------------------------
  // The script
  // ---------------------------------------------------------------------------

  /** `action.type === 'created' ? 'new' : 'updated'`. */
  function FileStatusOf(kind: ActionKind): Files.FileStatus
  {
    if kind == Created then Files.New else Files.Updated
  }

  /** `addSources` when the step has a source action. */
  function SourceEffect(s: Step): seq<Transition>
  {
    match s.sourceAction
    case Some(found) => [AppendSources(found)]
    case None => []
  }

  /** `addFile` when the step has a file action. */
  function FileEffect(s: Step): seq<Transition>
  {
    match s.fileAction
    case Some(a) => [UpsertFile(a.fileName, FileStatusOf(a.kind))]
    case None => []
  }

  /** One turn of the step loop: start, sources, work, file, complete, pause. */
  function Iteration(msg: nat, i: nat, s: Step): seq<Transition>
  {
    [Patch(msg, i, StatusPatch(Running))] + SourceEffect(s) + [Pause]
      + FileEffect(s) + [Patch(msg, i, StatusPatch(Completed)), Pause]
  }

  /** The step loop from index `i` on. */
  function StepLoop(msg: nat, steps: seq<Step>, i: nat): seq<Transition>
    decreases |steps| - i
  {
    if i >= |steps| then [] else Iteration(msg, i, steps[i]) + StepLoop(msg, steps, i + 1)
  }

  /** The streaming loop: show each value, then pause. */
  function StreamLoop(msg: nat, values: seq<string>): seq<Transition>
  {
    if values == [] then [] else [ShowContent(msg, values[0]), Pause] + StreamLoop(msg, values[1..])
  }

  /** The opening of a run: take the prompt, think, reveal the steps. */
  function Opening(msg: nat, steps: seq<Step>): seq<Transition>
  {
    [Begin, Pause, Reveal(msg, steps)]
  }

  /** The close of a run: stop streaming, stop processing. */
  function Closing(msg: nat): seq<Transition>
  {
    [EndStreaming(msg), Finish]
  }

  /**
   * The run of a script of `steps` ending in the answer `answer`: nothing for
   * an empty prompt; otherwise the assistant message sits right after the
   * new user message, at index `|chats| + 1`.
   */
  function RunScript(st: DemoState, steps: seq<Step>, answer: string): seq<Transition>
  {
    if st.message == "" then []
    else
      var msg := |st.chats| + 1;
      Opening(msg, steps) + StepLoop(msg, steps, 0)
        + StreamLoop(msg, Stream(answer)) + Closing(msg)
  }

  /** Everything one call of `runSimulation` does from state `st`. */
  function Script(st: DemoState): seq<Transition>
  {
    RunScript(st, InitialSteps(), FinalResponse)
  }

  // ---------------------------------------------------------------------------
  // Reference definitions of the panels after a run
  // ---------------------------------------------------------------------------

  /** The file list after a step's file action. */
  function StepFile(files: seq<Files.FileRecord>, s: Step): seq<Files.FileRecord>
  {
    match s.fileAction
    case Some(a) => Files.AddFile(files, a.fileName, FileStatusOf(a.kind))
    case None => files
  }

  /** The file list after the file actions of `steps`, in order. */
  function UpsertSteps(files: seq<Files.FileRecord>, steps: seq<Step>): seq<Files.FileRecord>
    decreases |steps|
  {
    if steps == [] then files else UpsertSteps(StepFile(files, steps[0]), steps[1..])
  }

  /** File names stay distinct through any number of steps. */
  lemma {:induction false} UpsertStepsKeepsNamesDistinct(files: seq<Files.FileRecord>, steps: seq<Step>)
    requires Files.DistinctNames(files)
    ensures Files.DistinctNames(UpsertSteps(files, steps))
    decreases |steps|
  {
    if steps != [] {
      match steps[0].fileAction {
        case Some(a) => Files.AddFileKeepsNamesDistinct(files, a.fileName, FileStatusOf(a.kind));
        case None =>
      }
      UpsertStepsKeepsNamesDistinct(StepFile(files, steps[0]), steps[1..]);
    }
  }

  // ---------------------------------------------------------------------------
  // What may change between two consecutive states
  // ---------------------------------------------------------------------------

  /** The text of message `m`; empty while it does not exist. */
  function ContentAt(chats: seq<Message>, m: nat): string
  {
    if m < |chats| then chats[m].content else ""
  }

  /**
   * The step statuses either stay, appear all pending, or advance by one:
   * the next pending step starts, or the running step completes.
   */
  predicate StatusMove(x: seq<Status>, y: seq<Status>)
  {
    || x == y
    || (x == [] && y == Phase(|y|, 0, false))
    || (exists k :: 0 <= k < |x| &&
          ((x == Phase(|x|, k, false) && y == Phase(|x|, k, true)) ||
           (x == Phase(|x|, k, true) && y == Phase(|x|, k + 1, false))))
  }

  /**
   * Message `m` between two consecutive states: its statuses make a
   * `StatusMove`, its text stays a prefix of `text`, and it either stays or
   * grows by the next chunk.
   */
  predicate Legal(a: DemoState, b: DemoState, m: nat, text: string)
  {
    var x := ContentAt(a.chats, m);
    var y := ContentAt(b.chats, m);
    && StatusMove(StatusesAt(a.chats, m), StatusesAt(b.chats, m))
    && x <= text && y <= text
    && (y == x || |y| == |x| + Min(ChunkSize, |text| - |x|))
  }

  /** Every transition of `ts` is a `Legal` move. */
  predicate LegalRun(st: DemoState, ts: seq<Transition>, m: nat, text: string)
    requires Runs(st, ts)
    decreases |ts|
  {
    ts == [] || (Legal(st, Apply(st, ts[0]), m, text) && LegalRun(Apply(st, ts[0]), ts[1..], m, text))
  }

  /** Running `a + b` is running `a`, then `b` from where `a` ended. */
  lemma {:induction false} RunAppend(st: DemoState, a: seq<Transition>, b: seq<Transition>)
    ensures Runs(st, a + b) <==> Runs(st, a) && Runs(Run(st, a), b)
    ensures Runs(st, a) && Runs(Run(st, a), b) ==> Run(st, a + b) == Run(Run(st, a), b)
    decreases |a|
  {
    if a == [] {
      assert a + b == b;
    } else {
      assert (a + b)[0] == a[0];
      assert (a + b)[1..] == a[1..] + b;
      if Enabled(st, a[0]) {
        RunAppend(Apply(st, a[0]), a[1..], b);
      }
    }
  }

  /** `a + b` is a legal run exactly when `a` is and `b` is from where `a` ended. */
  lemma {:induction false} LegalRunAppend(st: DemoState, a: seq<Transition>, b: seq<Transition>, m: nat, text: string)
    requires Runs(st, a) && Runs(Run(st, a), b)
    ensures Runs(st, a + b)
    ensures LegalRun(st, a + b, m, text) <==> LegalRun(st, a, m, text) && LegalRun(Run(st, a), b, m, text)
    decreases |a|
  {
    RunAppend(st, a, b);
    if a == [] {
      assert a + b == b;
    } else {
      assert (a + b)[0] == a[0];
      assert (a + b)[1..] == a[1..] + b;
      LegalRunAppend(Apply(st, a[0]), a[1..], b, m, text);
    }
  }

  /** Two runs one after the other: the combined run, its final state, and its legality. */
  lemma Glue(st: DemoState, a: seq<Transition>, b: seq<Transition>, m: nat, text: string)
    requires Runs(st, a) && Runs(Run(st, a), b)
    ensures Runs(st, a + b) && Run(st, a + b) == Run(Run(st, a), b)
    ensures LegalRun(st, a, m, text) && LegalRun(Run(st, a), b, m, text) ==> LegalRun(st, a + b, m, text)
  {
    RunAppend(st, a, b);
    LegalRunAppend(st, a, b, m, text);
  }

  /** Two legal runs through a named middle state make one legal run. */
  lemma Chain(st: DemoState, a: seq<Transition>, mid: DemoState, b: seq<Transition>, fin: DemoState, m: nat, text: string)
    requires Runs(st, a) && Run(st, a) == mid && LegalRun(st, a, m, text)
    requires Runs(mid, b) && Run(mid, b) == fin && LegalRun(mid, b, m, text)
    ensures Runs(st, a + b) && Run(st, a + b) == fin && LegalRun(st, a + b, m, text)
  {
    Glue(st, a, b, m, text);
  }

  /** Replacing the last of two appended messages. */
  lemma ReplaceLast<T>(xs: seq<T>, u: T, d: T, e: T)
    ensures (xs + [u, d])[|xs| + 1 := e] == xs + [u, e]
  {
  }

  /** A single enabled transition runs, and is legal exactly when its move is. */
  lemma RunOne(st: DemoState, t: Transition, m: nat, text: string)
    requires Enabled(st, t)
    ensures Runs(st, [t]) && Run(st, [t]) == Apply(st, t)
    ensures LegalRun(st, [t], m, text) <==> Legal(st, Apply(st, t), m, text)
  {
  }

  /** A legal run makes a legal move between every two consecutive states. */
  lemma {:induction false} LegalRunStates(st: DemoState, ts: seq<Transition>, m: nat, text: string)
    requires Runs(st, ts) && LegalRun(st, ts, m, text)
    ensures forall j :: 0 <= j < |ts| ==> Legal(States(st, ts)[j], States(st, ts)[j + 1], m, text)
    decreases |ts|
  {
    if ts != [] {
      var next := Apply(st, ts[0]);
      LegalRunStates(next, ts[1..], m, text);
      var ss := States(st, ts);
      var rest := States(next, ts[1..]);
      assert ss == [st] + rest;
      assert Legal(st, next, m, text);
      assert ss[1] == next;
      forall j | 0 <= j < |ts| ensures Legal(ss[j], ss[j + 1], m, text) {
        if j > 0 {
          assert ss[j] == rest[j - 1] && ss[j + 1] == rest[j - 1 + 1];
          assert Legal(rest[j - 1], rest[j - 1 + 1], m, text);
        }
      }
    }
  }

  // ---------------------------------------------------------------------------
  // The pieces of a run
  // ---------------------------------------------------------------------------

  /** A transition that leaves message `m` alone is a legal move once its text is a prefix. */
  lemma StillLegal(a: DemoState, b: DemoState, m: nat, text: string)
    requires ContentAt(a.chats, m) <= text
    requires StatusesAt(a.chats, m) == StatusesAt(b.chats, m)
    requires ContentAt(a.chats, m) == ContentAt(b.chats, m)
    ensures Legal(a, b, m, text)
  {
  }

  /** A pause runs, changes nothing, and is legal once the text is a prefix. */
  lemma PauseRun(st: DemoState, m: nat, text: string)
    requires ContentAt(st.chats, m) <= text
    ensures Runs(st, [Pause]) && Run(st, [Pause]) == st && LegalRun(st, [Pause], m, text)
  {
  }

  /** Transitions of the step loop that touch only the files or sources panels. */
  lemma PanelEffectRun(st: DemoState, s: Step, m: nat, text: string)
    requires ContentAt(st.chats, m) <= text
    ensures Runs(st, SourceEffect(s)) && Runs(st, FileEffect(s))
    ensures Run(st, SourceEffect(s)) == st.(sources := st.sources + SourcesOf([s]))
    ensures Run(st, FileEffect(s)) == st.(files := StepFile(st.files, s))
    ensures LegalRun(st, SourceEffect(s), m, text) && LegalRun(st, FileEffect(s), m, text)
  {
  }

  /** All steps pending, the first `i` of them completed: phase `(i, not running)`. */
  lemma CompletedUpToPhase(steps: seq<Step>, i: nat)
    requires Statuses(steps) == Phase(|steps|, 0, false)
    requires i <= |steps|
    ensures Statuses(CompletedUpTo(steps, i)) == Phase(|steps|, i, false)
  {
  }

  /** The steps while step `i` runs: the first `i` completed, step `i` running. */
  function RunningAt(steps: seq<Step>, i: nat): seq<Step>
    requires i < |steps|
  {
    CompletedUpTo(steps, i)[i := steps[i].(status := Running)]
  }

  /** The message `m` with its steps replaced. */
  function WithSteps(chats: seq<Message>, m: nat, steps: seq<Step>): seq<Message>
    requires m < |chats|
  {
    chats[m := chats[m].(steps := Some(steps))]
  }

  lemma WithStepsTwice(chats: seq<Message>, m: nat, x: seq<Step>, y: seq<Step>)
    requires m < |chats|
    ensures WithSteps(WithSteps(chats, m, x), m, y) == WithSteps(chats, m, y)
    ensures ContentAt(WithSteps(chats, m, x), m) == ContentAt(chats, m)
  {
  }

  /** Starting step `i` in phase `(i, not running)` moves to phase `(i, running)`. */
  lemma StartStep(st: DemoState, m: nat, steps: seq<Step>, i: nat, text: string)
    requires m < |st.chats| && i < |steps|
    requires Statuses(steps) == Phase(|steps|, 0, false)
    requires st.chats[m].steps == Some(CompletedUpTo(steps, i))
    requires ContentAt(st.chats, m) <= text
    ensures Runs(st, [Patch(m, i, StatusPatch(Running))])
    ensures Run(st, [Patch(m, i, StatusPatch(Running))]) == st.(chats := WithSteps(st.chats, m, RunningAt(steps, i)))
    ensures LegalRun(st, [Patch(m, i, StatusPatch(Running))], m, text)
  {
    var n := |steps|;
    var t := Patch(m, i, StatusPatch(Running));
    assert Statuses(steps)[i] == Phase(n, 0, false)[i];
    assert CompletedUpTo(steps, i)[i] == steps[i];
    UpdateStepOnlyStatus(st.chats, m, i, Running);
    var s1 := Apply(st, t);
    assert s1 == st.(chats := WithSteps(st.chats, m, RunningAt(steps, i)));
    assert StatusMove(StatusesAt(st.chats, m), StatusesAt(s1.chats, m)) by {
      UpdateStepStatus(st.chats, m, i, Running);
      CompletedUpToPhase(steps, i);
      PhaseStart(n, i);
      assert StatusesAt(st.chats, m) == Phase(n, i, false);
      assert StatusesAt(s1.chats, m) == Phase(n, i, true);
    }
    RunOne(st, t, m, text);
  }

  /** Completing the running step `i` moves to phase `(i + 1, not running)`. */
  lemma FinishStep(st: DemoState, m: nat, steps: seq<Step>, i: nat, text: string)
    requires m < |st.chats| && i < |steps|
    requires Statuses(steps) == Phase(|steps|, 0, false)
    requires st.chats[m].steps == Some(RunningAt(steps, i))
    requires ContentAt(st.chats, m) <= text
    ensures Runs(st, [Patch(m, i, StatusPatch(Completed))])
    ensures Run(st, [Patch(m, i, StatusPatch(Completed))]) == st.(chats := WithSteps(st.chats, m, CompletedUpTo(steps, i + 1)))
    ensures LegalRun(st, [Patch(m, i, StatusPatch(Completed))], m, text)
  {
    var n := |steps|;
    var t := Patch(m, i, StatusPatch(Completed));
    UpdateStepOnlyStatus(st.chats, m, i, Completed);
    var s1 := Apply(st, t);
    assert RunningAt(steps, i)[i := steps[i].(status := Completed)] == CompletedUpTo(steps, i + 1);
    assert s1 == st.(chats := WithSteps(st.chats, m, CompletedUpTo(steps, i + 1)));
    assert StatusMove(StatusesAt(st.chats, m), StatusesAt(s1.chats, m)) by {
      CompletedUpToPhase(steps, i);
      CompletedUpToPhase(steps, i + 1);
      PhaseStart(n, i);
      assert StatusesAt(st.chats, m) == Statuses(CompletedUpTo(steps, i))[i := Running];
      assert StatusesAt(st.chats, m) == Phase(n, i, true);
      assert StatusesAt(s1.chats, m) == Phase(n, i + 1, false);
    }
    RunOne(st, t, m, text);
  }

  /** Completing a step and pausing. */
  lemma FinishStepAndPause(st: DemoState, m: nat, steps: seq<Step>, i: nat, text: string)
    requires m < |st.chats| && i < |steps|
    requires Statuses(steps) == Phase(|steps|, 0, false)
    requires st.chats[m].steps == Some(RunningAt(steps, i))
    requires ContentAt(st.chats, m) <= text
    ensures Runs(st, [Patch(m, i, StatusPatch(Completed)), Pause])
    ensures Run(st, [Patch(m, i, StatusPatch(Completed)), Pause]) ==
      st.(chats := WithSteps(st.chats, m, CompletedUpTo(steps, i + 1)))
    ensures LegalRun(st, [Patch(m, i, StatusPatch(Completed)), Pause], m, text)
  {
    var finish := Patch(m, i, StatusPatch(Completed));
    FinishStep(st, m, steps, i, text);
    var s1 := st.(chats := WithSteps(st.chats, m, CompletedUpTo(steps, i + 1)));
    WithStepsTwice(st.chats, m, RunningAt(steps, i), CompletedUpTo(steps, i + 1));
    PauseRun(s1, m, text);
    Glue(st, [finish], [Pause], m, text);
    assert [finish] + [Pause] == [finish, Pause];
  }

  /**
   * One turn of the step loop from phase `(i, not running)`: step `i` runs,
   * then completes, its sources are added and its file action applied, and
   * nothing else changes.
   */
  lemma IterationRun(st: DemoState, m: nat, steps: seq<Step>, i: nat, text: string)
    requires m < |st.chats| && i < |steps|
    requires Statuses(steps) == Phase(|steps|, 0, false)
    requires st.chats[m].steps == Some(CompletedUpTo(steps, i))
    requires ContentAt(st.chats, m) <= text
    ensures Runs(st, Iteration(m, i, steps[i]))
    ensures Run(st, Iteration(m, i, steps[i])) ==
      st.(chats := WithSteps(st.chats, m, CompletedUpTo(steps, i + 1)),
          files := StepFile(st.files, steps[i]),
          sources := st.sources + SourcesOf([steps[i]]))
    ensures LegalRun(st, Iteration(m, i, steps[i]), m, text)
  {
    var s := steps[i];
    var start := Patch(m, i, StatusPatch(Running));
    var finish := Patch(m, i, StatusPatch(Completed));
    var s1 := st.(chats := WithSteps(st.chats, m, RunningAt(steps, i)));
    var s2 := s1.(sources := st.sources + SourcesOf([s]));
    var s4 := s2.(files := StepFile(st.files, s));
    var s5 := s4.(chats := WithSteps(st.chats, m, CompletedUpTo(steps, i + 1)));
    WithStepsTwice(st.chats, m, RunningAt(steps, i), CompletedUpTo(steps, i + 1));

    var p1 := [start];
    var p2 := p1 + SourceEffect(s);
    var p3 := p2 + [Pause];
    var p4 := p3 + FileEffect(s);
    assert Runs(st, p1) && Run(st, p1) == s1 && LegalRun(st, p1, m, text) by {
      StartStep(st, m, steps, i, text);
    }
    assert Runs(st, p2) && Run(st, p2) == s2 && LegalRun(st, p2, m, text) by {
      PanelEffectRun(s1, s, m, text);
      Glue(st, p1, SourceEffect(s), m, text);
    }
    assert Runs(st, p3) && Run(st, p3) == s2 && LegalRun(st, p3, m, text) by {
      PauseRun(s2, m, text);
      Glue(st, p2, [Pause], m, text);
    }
    assert Runs(st, p4) && Run(st, p4) == s4 && LegalRun(st, p4, m, text) by {
      PanelEffectRun(s2, s, m, text);
      Glue(st, p3, FileEffect(s), m, text);
    }
    FinishStepAndPause(s4, m, steps, i, text);
    Glue(st, p4, [finish, Pause], m, text);
    assert Iteration(m, i, s) == p4 + [finish, Pause];
  }

  /** The sources and files of `steps[i..]` are those of step `i`, then those of `steps[i + 1..]`. */
  lemma StepsFrom(files: seq<Files.FileRecord>, steps: seq<Step>, i: nat)
    requires i < |steps|
    ensures UpsertSteps(files, steps[i..]) == UpsertSteps(StepFile(files, steps[i]), steps[i + 1..])
    ensures SourcesOf(steps[i..]) == SourcesOf([steps[i]]) + SourcesOf(steps[i + 1..])
  {
  }

  lemma ConcatAssoc<T>(a: seq<T>, b: seq<T>, c: seq<T>)
    ensures a + b + c == a + (b + c)
  {
  }

  /**
   * The step loop from phase `(i, not running)` runs every remaining step to
   * completion, adds their sources in order and applies their file actions
   * in order.
   */
  lemma {:induction false} StepLoopRun(st: DemoState, m: nat, steps: seq<Step>, i: nat, text: string)
    requires m < |st.chats| && i <= |steps|
    requires Statuses(steps) == Phase(|steps|, 0, false)
    requires st.chats[m].steps == Some(CompletedUpTo(steps, i))
    requires ContentAt(st.chats, m) <= text
    ensures Runs(st, StepLoop(m, steps, i))
    ensures Run(st, StepLoop(m, steps, i)) ==
      st.(chats := WithSteps(st.chats, m, AllCompleted(steps)),
          files := UpsertSteps(st.files, steps[i..]),
          sources := st.sources + SourcesOf(steps[i..]))
    ensures LegalRun(st, StepLoop(m, steps, i), m, text)
    decreases |steps| - i
  {
    if i == |steps| {
      assert CompletedUpTo(steps, i) == AllCompleted(steps);
      assert st.chats == WithSteps(st.chats, m, AllCompleted(steps));
      assert steps[i..] == [];
      assert st.sources + [] == st.sources;
    } else {
      var it := Iteration(m, i, steps[i]);
      var rest := StepLoop(m, steps, i + 1);
      assert StepLoop(m, steps, i) == it + rest;
      var mid := st.(chats := WithSteps(st.chats, m, CompletedUpTo(steps, i + 1)),
                     files := StepFile(st.files, steps[i]),
                     sources := st.sources + SourcesOf([steps[i]]));
      var fin := st.(chats := WithSteps(st.chats, m, AllCompleted(steps)),
                     files := UpsertSteps(st.files, steps[i..]),
                     sources := st.sources + SourcesOf(steps[i..]));
      assert Runs(st, it) && Run(st, it) == mid && LegalRun(st, it, m, text) by {
        IterationRun(st, m, steps, i, text);
      }
      assert Runs(mid, rest) && Run(mid, rest) == fin && LegalRun(mid, rest, m, text) by {
        WithStepsTwice(st.chats, m, CompletedUpTo(steps, i + 1), AllCompleted(steps));
        StepLoopRun(mid, m, steps, i + 1, text);
        StepsFrom(st.files, steps, i);
        ConcatAssoc(st.sources, SourcesOf([steps[i]]), SourcesOf(steps[i + 1..]));
      }
      Glue(st, it, rest, m, text);
    }
  }

  /** The streamed values make a chain of one-chunk extensions of `prev`, all prefixes of `text`. */
  predicate ChunkChain(prev: string, vs: seq<string>, text: string)
  {
    && (forall k :: 0 <= k < |vs| ==> vs[k] <= text)
    && (|vs| > 0 ==> |vs[0]| == |prev| + Min(ChunkSize, |text| - |prev|))
    && (forall k :: 0 <= k < |vs| - 1 ==> |vs[k + 1]| == |vs[k]| + Min(ChunkSize, |text| - |vs[k]|))
  }

  /** The last streamed value, or `prev` when nothing streams. */
  function LastOr(prev: string, vs: seq<string>): string
  {
    if vs == [] then prev else vs[|vs| - 1]
  }

  /** Showing the first streamed value and pausing. */
  lemma ShowAndPause(st: DemoState, m: nat, v: string, text: string)
    requires m < |st.chats|
    requires ContentAt(st.chats, m) <= text && v <= text
    requires |v| == |ContentAt(st.chats, m)| + Min(ChunkSize, |text| - |ContentAt(st.chats, m)|)
    ensures Runs(st, [ShowContent(m, v), Pause])
    ensures Run(st, [ShowContent(m, v), Pause]) == st.(chats := WithContent(st.chats, m, v))
    ensures LegalRun(st, [ShowContent(m, v), Pause], m, text)
  {
    var show := ShowContent(m, v);
    var s1 := Apply(st, show);
    assert ContentAt(s1.chats, m) == v;
    assert StatusesAt(s1.chats, m) == StatusesAt(st.chats, m);
    RunOne(st, show, m, text);
    PauseRun(s1, m, text);
    Glue(st, [show], [Pause], m, text);
    assert [show] + [Pause] == [show, Pause];
  }

  /** The tail of a chain is a chain from its first value. */
  lemma ChunkChainTail(prev: string, vs: seq<string>, text: string)
    requires |vs| > 0 && ChunkChain(prev, vs, text)
    ensures ChunkChain(vs[0], vs[1..], text)
  {
  }

  /** The message `m` with its text replaced. */
  function WithContent(chats: seq<Message>, m: nat, content: string): seq<Message>
    requires m < |chats|
  {
    chats[m := chats[m].(content := content)]
  }

  lemma WithContentTwice(chats: seq<Message>, m: nat, x: string, y: string)
    requires m < |chats|
    ensures WithContent(WithContent(chats, m, x), m, y) == WithContent(chats, m, y)
    ensures ContentAt(WithContent(chats, m, x), m) == x
  {
  }

  /** The streaming loop sets the text of message `m` value by value and touches nothing else. */
  lemma {:induction false} StreamLoopRun(st: DemoState, m: nat, vs: seq<string>, text: string)
    requires m < |st.chats|
    requires ContentAt(st.chats, m) <= text
    requires ChunkChain(ContentAt(st.chats, m), vs, text)
    ensures Runs(st, StreamLoop(m, vs))
    ensures Run(st, StreamLoop(m, vs)) ==
      st.(chats := WithContent(st.chats, m, LastOr(ContentAt(st.chats, m), vs)))
    ensures LegalRun(st, StreamLoop(m, vs), m, text)
    decreases |vs|
  {
    if vs == [] {
      assert WithContent(st.chats, m, st.chats[m].content) == st.chats;
    } else {
      var head := [ShowContent(m, vs[0]), Pause];
      var tail := StreamLoop(m, vs[1..]);
      var last := LastOr(ContentAt(st.chats, m), vs);
      var s1 := st.(chats := WithContent(st.chats, m, vs[0]));
      var fin := st.(chats := WithContent(st.chats, m, last));
      assert Runs(st, head) && Run(st, head) == s1 && LegalRun(st, head, m, text) by {
        ShowAndPause(st, m, vs[0], text);
      }
      assert LastOr(vs[0], vs[1..]) == last;
      assert Runs(s1, tail) && Run(s1, tail) == fin && LegalRun(s1, tail, m, text) by {
        WithContentTwice(st.chats, m, vs[0], last);
        ChunkChainTail(ContentAt(st.chats, m), vs, text);
        StreamLoopRun(s1, m, vs[1..], text);
      }
      Glue(st, head, tail, m, text);
      assert StreamLoop(m, vs) == head + tail;
    }
  }

  /** The opening adds the user message and an assistant message showing the pending steps. */
  lemma OpeningRun(st: DemoState, steps: seq<Step>, text: string)
    requires st.message != ""
    requires Statuses(steps) == Phase(|steps|, 0, false)
    ensures Runs(st, Opening(|st.chats| + 1, steps))
    ensures Run(st, Opening(|st.chats| + 1, steps)) ==
      st.(message := "", processing := true,
          chats := st.chats + [UserMessage(st.message), Message(Assistant, "", Some(steps), true, false)])
    ensures LegalRun(st, Opening(|st.chats| + 1, steps), |st.chats| + 1, text)
  {
    var m := |st.chats| + 1;
    var s1 := Apply(st, Begin);
    var s3 := Apply(s1, Reveal(m, steps));
    assert StatusesAt(s3.chats, m) == Phase(|steps|, 0, false);
    RunOne(st, Begin, m, text);
    StillLegal(st, s1, m, text);
    PauseRun(s1, m, text);
    RunOne(s1, Reveal(m, steps), m, text);
    Glue(st, [Begin], [Pause], m, text);
    Glue(st, [Begin, Pause], [Reveal(m, steps)], m, text);
    assert [Begin] + [Pause] == [Begin, Pause];
    assert [Begin, Pause] + [Reveal(m, steps)] == Opening(m, steps);
  }

  /** The close clears the streaming flag of message `m` and the processing flag. */
  lemma ClosingRun(st: DemoState, m: nat, text: string)
    requires m < |st.chats|
    requires ContentAt(st.chats, m) <= text
    ensures Runs(st, Closing(m))
    ensures Run(st, Closing(m)) ==
      st.(processing := false, chats := st.chats[m := st.chats[m].(isStreaming := false)])
    ensures LegalRun(st, Closing(m), m, text)
  {
    var s1 := Apply(st, EndStreaming(m));
    RunOne(st, EndStreaming(m), m, text);
    StillLegal(st, s1, m, text);
    RunOne(s1, Finish, m, text);
    StillLegal(s1, Apply(s1, Finish), m, text);
    Glue(st, [EndStreaming(m)], [Finish], m, text);
    assert [EndStreaming(m)] + [Finish] == Closing(m);
  }

  /** The trace ends in the final state. */
  lemma {:induction false} StatesEnd(st: DemoState, ts: seq<Transition>)
    requires Runs(st, ts)
    ensures States(st, ts)[|ts|] == Run(st, ts)
    decreases |ts|
  {
    if ts != [] {
      StatesEnd(Apply(st, ts[0]), ts[1..]);
    }
  }

  // ---------------------------------------------------------------------------
  // A whole run
  // ---------------------------------------------------------------------------

  /** An empty prompt makes `runSimulation` return at once: no transition, no change. */
  lemma EmptyPromptChangesNothing(st: DemoState)
    requires st.message == ""
    ensures Script(st) == [] && Runs(st, Script(st)) && Run(st, Script(st)) == st
  {
  }

  /** The step loop over a freshly revealed message: every step completed, panels filled. */
  lemma LoopAfterOpening(s1: DemoState, m: nat, steps: seq<Step>, answer: string)
    requires m < |s1.chats| && s1.chats[m] == Message(Assistant, "", Some(steps), true, false)
    requires Statuses(steps) == Phase(|steps|, 0, false)
    ensures Runs(s1, StepLoop(m, steps, 0))
    ensures Run(s1, StepLoop(m, steps, 0)) ==
      s1.(chats := s1.chats[m := Message(Assistant, "", Some(AllCompleted(steps)), true, false)],
          files := UpsertSteps(s1.files, steps),
          sources := s1.sources + SourcesOf(steps))
    ensures LegalRun(s1, StepLoop(m, steps, 0), m, answer)
  {
    assert CompletedUpTo(steps, 0) == steps;
    assert ContentAt(s1.chats, m) == "";
    assert steps[0..] == steps;
    StepLoopRun(s1, m, steps, 0, answer);
  }

  /** The opening and the step loop: the prompt taken, every step completed, panels filled. */
  lemma WorkRun(st: DemoState, steps: seq<Step>, answer: string)
    requires st.message != ""
    requires Statuses(steps) == Phase(|steps|, 0, false)
    ensures var m := |st.chats| + 1;
      && Runs(st, Opening(m, steps) + StepLoop(m, steps, 0))
      && Run(st, Opening(m, steps) + StepLoop(m, steps, 0)) ==
        st.(message := "", processing := true,
            chats := st.chats + [UserMessage(st.message), Message(Assistant, "", Some(AllCompleted(steps)), true, false)],
            files := UpsertSteps(st.files, steps),
            sources := st.sources + SourcesOf(steps))
      && LegalRun(st, Opening(m, steps) + StepLoop(m, steps, 0), m, answer)
  {
    var m := |st.chats| + 1;
    var user := UserMessage(st.message);
    var ast := Message(Assistant, "", Some(steps), true, false);
    var done := ast.(steps := Some(AllCompleted(steps)));
    var a := Opening(m, steps);
    var b := StepLoop(m, steps, 0);
    var s1 := st.(message := "", processing := true, chats := st.chats + [user, ast]);
    var s2 := s1.(chats := st.chats + [user, done],
                  files := UpsertSteps(st.files, steps),
                  sources := st.sources + SourcesOf(steps));
    assert Runs(st, a) && Run(st, a) == s1 && LegalRun(st, a, m, answer) by {
      OpeningRun(st, steps, answer);
    }
    assert Runs(s1, b) && Run(s1, b) == s2 && LegalRun(s1, b, m, answer) by {
      LoopAfterOpening(s1, m, steps, answer);
      ReplaceLast(st.chats, user, ast, done);
    }
    Chain(st, a, s1, b, s2, m, answer);
  }

  /** The streaming loop and the close: the whole answer shown, both flags cleared. */
  lemma AnswerRun(st: DemoState, m: nat, answer: string)
    requires m < |st.chats| && st.chats[m].content == ""
    ensures Runs(st, StreamLoop(m, Stream(answer)) + Closing(m))
    ensures Run(st, StreamLoop(m, Stream(answer)) + Closing(m)) ==
      st.(processing := false, chats := st.chats[m := st.chats[m].(content := answer, isStreaming := false)])
    ensures LegalRun(st, StreamLoop(m, Stream(answer)) + Closing(m), m, answer)
  {
    var vs := Stream(answer);
    var c := StreamLoop(m, vs);
    var d := Closing(m);
    var s3 := st.(chats := WithContent(st.chats, m, answer));
    assert Runs(st, c) && Run(st, c) == s3 && LegalRun(st, c, m, answer) by {
      StreamGrowsByChunks(answer);
      assert ChunkChain("", vs, answer);
      StreamLoopRun(st, m, vs, answer);
      assert LastOr("", vs) == answer;
    }
    assert Runs(s3, d) && LegalRun(s3, d, m, answer)
        && Run(s3, d) == st.(processing := false, chats := st.chats[m := st.chats[m].(content := answer, isStreaming := false)]) by {
      ClosingRun(s3, m, answer);
    }
    Glue(st, c, d, m, answer);
  }

  /**
   * A run of a script whose steps start pending, from any state with a
   * non-empty prompt: every transition finds its message and step, each
   * move is legal, and the final state has the prompt cleared, processing
   * over, the earlier messages untouched and followed by the prompt and an
   * assistant message holding the whole answer with every step completed
   * and neither flag set, the steps' sources after the earlier sources, and
   * the steps' file actions upserted in order.
   */
  lemma ScriptRun(st: DemoState, steps: seq<Step>, answer: string)
    requires st.message != ""
    requires Statuses(steps) == Phase(|steps|, 0, false)
    ensures Runs(st, RunScript(st, steps, answer))
    ensures Run(st, RunScript(st, steps, answer)) ==
      st.(message := "", processing := false,
          chats := st.chats + [UserMessage(st.message),
                               Message(Assistant, answer, Some(AllCompleted(steps)), false, false)],
          sources := st.sources + SourcesOf(steps),
          files := UpsertSteps(st.files, steps))
    ensures LegalRun(st, RunScript(st, steps, answer), |st.chats| + 1, answer)
  {
    var m := |st.chats| + 1;
    var user := UserMessage(st.message);
    var done := Message(Assistant, "", Some(AllCompleted(steps)), true, false);
    var work := Opening(m, steps) + StepLoop(m, steps, 0);
    var tail := StreamLoop(m, Stream(answer)) + Closing(m);
    var s2 := st.(message := "", processing := true, chats := st.chats + [user, done],
                  files := UpsertSteps(st.files, steps),
                  sources := st.sources + SourcesOf(steps));
    assert Runs(st, work) && Run(st, work) == s2 && LegalRun(st, work, m, answer) by {
      WorkRun(st, steps, answer);
    }
    var fin := st.(message := "", processing := false,
                   chats := st.chats + [user, done.(content := answer, isStreaming := false)],
                   sources := st.sources + SourcesOf(steps),
                   files := UpsertSteps(st.files, steps));
    assert Runs(s2, tail) && LegalRun(s2, tail, m, answer) && Run(s2, tail) == fin by {
      AnswerRun(s2, m, answer);
      ReplaceLast(st.chats, user, done, done.(content := answer, isStreaming := false));
    }
    assert RunScript(st, steps, answer) == work + tail;
    Chain(st, work, s2, tail, fin, m, answer);
  }

  /** Along a legal run of message `m` the statuses only make `StatusMove`s. */
  lemma LegalStatuses(st: DemoState, ts: seq<Transition>, m: nat, text: string)
    requires Runs(st, ts) && LegalRun(st, ts, m, text)
    ensures forall j :: 0 <= j < |ts| ==>
      StatusMove(StatusesAt(States(st, ts)[j].chats, m), StatusesAt(States(st, ts)[j + 1].chats, m))
  {
    LegalRunStates(st, ts, m, text);
    forall j | 0 <= j < |ts|
      ensures StatusMove(StatusesAt(States(st, ts)[j].chats, m), StatusesAt(States(st, ts)[j + 1].chats, m))
    {
      assert Legal(States(st, ts)[j], States(st, ts)[j + 1], m, text);
    }
  }

  /** Along a legal run of message `m` its text stays a prefix of `text` and grows chunk by chunk. */
  lemma LegalContents(st: DemoState, ts: seq<Transition>, m: nat, text: string)
    requires Runs(st, ts) && LegalRun(st, ts, m, text)
    requires ContentAt(st.chats, m) <= text
    ensures forall j :: 0 <= j <= |ts| ==> ContentAt(States(st, ts)[j].chats, m) <= text
    ensures forall j :: 0 <= j < |ts| ==>
      var x := ContentAt(States(st, ts)[j].chats, m);
      var y := ContentAt(States(st, ts)[j + 1].chats, m);
      y == x || |y| == |x| + Min(ChunkSize, |text| - |x|)
  {
    var ss := States(st, ts);
    LegalRunStates(st, ts, m, text);
    forall j | 0 <= j <= |ts| ensures ContentAt(ss[j].chats, m) <= text {
      if j < |ts| {
        assert Legal(ss[j], ss[j + 1], m, text);
      } else if j > 0 {
        assert Legal(ss[j - 1], ss[j - 1 + 1], m, text);
      }
    }
    forall j | 0 <= j < |ts|
      ensures var x := ContentAt(ss[j].chats, m);
        var y := ContentAt(ss[j + 1].chats, m);
        y == x || |y| == |x| + Min(ChunkSize, |text| - |x|)
    {
      assert Legal(ss[j], ss[j + 1], m, text);
    }
  }

  /** Where a run from `st` puts its assistant message: right after the new user message. */
  function AssistantIndex(st: DemoState): nat
  {
    |st.chats| + 1
  }

  /**
   * Along the run `ts` from `st`, the steps of message `m` appear all pending
   * and then only ever advance by one: the lowest pending step starts, or
   * the running step completes. The run ends with all `n` steps completed,
   * so each step goes pending, running, completed exactly once, in index
   * order.
   */
  predicate StepsAdvance(st: DemoState, ts: seq<Transition>, m: nat, n: nat)
  {
    && Runs(st, ts)
    && StatusesAt(States(st, ts)[0].chats, m) == []
    && (forall j :: 0 <= j < |ts| ==>
          StatusMove(StatusesAt(States(st, ts)[j].chats, m), StatusesAt(States(st, ts)[j + 1].chats, m)))
    && StatusesAt(States(st, ts)[|ts|].chats, m) == Phase(n, n, false)
  }

  /**
   * Along the run `ts` from `st`, the text of message `m` is always a prefix
   * of `text` and only ever grows by the next chunk of `min(3, remaining)`
   * characters; it ends as the whole of `text`, with the streaming flag
   * cleared.
   */
  predicate StreamsByChunks(st: DemoState, ts: seq<Transition>, m: nat, text: string)
  {
    && Runs(st, ts)
    && (forall j :: 0 <= j <= |ts| ==> ContentAt(States(st, ts)[j].chats, m) <= text)
    && (forall j :: 0 <= j < |ts| ==>
          var x := ContentAt(States(st, ts)[j].chats, m);
          var y := ContentAt(States(st, ts)[j + 1].chats, m);
          y == x || |y| == |x| + Min(ChunkSize, |text| - |x|))
    && m < |States(st, ts)[|ts|].chats|
    && ContentAt(States(st, ts)[|ts|].chats, m) == text
    && !States(st, ts)[|ts|].chats[m].isStreaming
  }

  /** In a whole run of a script whose steps start pending, the steps advance in order. */
  lemma StepsAdvanceInOrder(st: DemoState, steps: seq<Step>, answer: string)
    requires st.message != ""
    requires Statuses(steps) == Phase(|steps|, 0, false)
    ensures StepsAdvance(st, RunScript(st, steps, answer), AssistantIndex(st), |steps|)
  {
    var m := |st.chats| + 1;
    var ts := RunScript(st, steps, answer);
    assert Runs(st, ts) && LegalRun(st, ts, m, answer)
        && |Run(st, ts).chats| == m + 1
        && Run(st, ts).chats[m].steps == Some(AllCompleted(steps)) by {
      ScriptRun(st, steps, answer);
    }
    var ss := States(st, ts);
    assert StatusesAt(ss[0].chats, m) == [];
    assert StatusesAt(ss[|ts|].chats, m) == Phase(|steps|, |steps|, false) by {
      StatesEnd(st, ts);
      assert Statuses(AllCompleted(steps)) == Phase(|steps|, |steps|, false);
    }
    LegalStatuses(st, ts, m, answer);
  }

  /** In a whole run of a script, the answer streams in by chunks. */
  lemma ContentStreamsByChunks(st: DemoState, steps: seq<Step>, answer: string)
    requires st.message != ""
    requires Statuses(steps) == Phase(|steps|, 0, false)
    ensures StreamsByChunks(st, RunScript(st, steps, answer), AssistantIndex(st), answer)
  {
    var m := |st.chats| + 1;
    var ts := RunScript(st, steps, answer);
    assert Runs(st, ts) && LegalRun(st, ts, m, answer)
        && |Run(st, ts).chats| == m + 1
        && Run(st, ts).chats[m].content == answer
        && !Run(st, ts).chats[m].isStreaming by {
      ScriptRun(st, steps, answer);
    }
    LegalContents(st, ts, m, answer);
    StatesEnd(st, ts);
  }

  /** The page's own run: its steps advance in order. */
  lemma PageStepsAdvanceInOrder(st: DemoState)
    requires st.message != ""
    ensures StepsAdvance(st, Script(st), AssistantIndex(st), |InitialSteps()|)
  {
    InitialStepsShape();
    StepsAdvanceInOrder(st, InitialSteps(), FinalResponse);
  }

  /** The page's own run: its answer streams in by chunks of at most three characters. */
  lemma PageContentStreamsByChunks(st: DemoState)
    requires st.message != ""
    ensures StreamsByChunks(st, Script(st), AssistantIndex(st), FinalResponse)
  {
    InitialStepsShape();
    ContentStreamsByChunks(st, InitialSteps(), FinalResponse);
  }

  /**
   * The page's own run from any state with a non-empty prompt: the five
   * steps all completed, the whole answer shown, the sources of the five
   * steps appended, their file actions upserted.
   */
  lemma RunOutcome(st: DemoState)
    requires st.message != ""
    ensures Runs(st, Script(st))
    ensures Run(st, Script(st)).message == ""
    ensures !Run(st, Script(st)).processing
    ensures Run(st, Script(st)).chats ==
      st.chats + [UserMessage(st.message),
                  Message(Assistant, FinalResponse, Some(AllCompleted(InitialSteps())), false, false)]
    ensures Run(st, Script(st)).sources == st.sources + SourcesOf(InitialSteps())
    ensures Run(st, Script(st)).files == UpsertSteps(st.files, InitialSteps())
  {
    InitialStepsShape();
    ScriptRun(st, InitialSteps(), FinalResponse);
  }

  /** Upserting five steps is applying their file actions one after the other. */
  lemma UpsertFiveSteps(files: seq<Files.FileRecord>, steps: seq<Step>)
    requires |steps| == 5
    ensures UpsertSteps(files, steps) ==
      StepFile(StepFile(StepFile(StepFile(StepFile(files, steps[0]), steps[1]), steps[2]), steps[3]), steps[4])
  {
    var f1 := StepFile(files, steps[0]);
    var f2 := StepFile(f1, steps[1]);
    var f3 := StepFile(f2, steps[2]);
    var f4 := StepFile(f3, steps[3]);
    assert steps[0..] == steps;
    StepsFrom(files, steps, 0);
    StepsFrom(f1, steps, 1);
    StepsFrom(f2, steps, 2);
    StepsFrom(f3, steps, 3);
    StepsFrom(f4, steps, 4);
    assert steps[5..] == [];
  }

  /** A created file, then a second created file, then the second updated. */
  lemma CreateCreateUpdate(s0: Step, s1: Step, s2: Step, a: string, b: string)
    requires s0.fileAction == Some(FileAction(Created, a))
    requires s1.fileAction == Some(FileAction(Created, b))
    requires s2.fileAction == Some(FileAction(Updated, b))
    requires a != b
    ensures StepFile(StepFile(StepFile([], s0), s1), s2) ==
      [Files.FileRecord(b, Files.FileType(b), Files.Updated), Files.FileRecord(a, Files.FileType(a), Files.New)]
  {
  }

  /** Creating a file whose name is new puts it in front of the others. */
  lemma CreateNew(files: seq<Files.FileRecord>, s: Step, c: string)
    requires s.fileAction == Some(FileAction(Created, c))
    requires forall k :: 0 <= k < |files| ==> files[k].name != c
    ensures StepFile(files, s) == [Files.FileRecord(c, Files.FileType(c), Files.New)] + files
  {
    Files.WithoutNameAbsent(files, c);
  }

  /** Upserting five file actions `a`, `b`, `b` updated, `c`, `d` into an empty list. */
  lemma UpsertFive(steps: seq<Step>, a: string, b: string, c: string, d: string)
    requires |steps| == 5
    requires steps[0].fileAction == Some(FileAction(Created, a))
    requires steps[1].fileAction == Some(FileAction(Created, b))
    requires steps[2].fileAction == Some(FileAction(Updated, b))
    requires steps[3].fileAction == Some(FileAction(Created, c))
    requires steps[4].fileAction == Some(FileAction(Created, d))
    requires a != b && a != c && a != d && b != c && b != d && c != d
    ensures UpsertSteps([], steps) ==
      [Files.FileRecord(d, Files.FileType(d), Files.New),
       Files.FileRecord(c, Files.FileType(c), Files.New),
       Files.FileRecord(b, Files.FileType(b), Files.Updated),
       Files.FileRecord(a, Files.FileType(a), Files.New)]
  {
    var fa := Files.FileRecord(a, Files.FileType(a), Files.New);
    var fb := Files.FileRecord(b, Files.FileType(b), Files.Updated);
    var fc := Files.FileRecord(c, Files.FileType(c), Files.New);
    var fd := Files.FileRecord(d, Files.FileType(d), Files.New);
    var f3 := StepFile(StepFile(StepFile([], steps[0]), steps[1]), steps[2]);
    assert f3 == [fb, fa] by {
      CreateCreateUpdate(steps[0], steps[1], steps[2], a, b);
    }
    assert StepFile(f3, steps[3]) == [fc, fb, fa] by {
      CreateNew([fb, fa], steps[3], c);
      assert [fc] + [fb, fa] == [fc, fb, fa];
    }
    assert StepFile([fc, fb, fa], steps[4]) == [fd, fc, fb, fa] by {
      CreateNew([fc, fb, fa], steps[4], d);
      assert [fd] + [fc, fb, fa] == [fd, fc, fb, fa];
    }
    UpsertFiveSteps([], steps);
  }

  /** The types the page derives for its four file names. */
  lemma ScriptedFileTypes()
    ensures Files.FileType("Competitors.csv") == "csv"
    ensures Files.FileType("Competitor-products.csv") == "csv"
    ensures Files.FileType("user-reviews.csv") == "csv"
    ensures Files.FileType("Market Research.md") == "md"
  {
    Files.FileTypeExtension("Competitors", "csv");
    Files.FileTypeExtension("Competitor-products", "csv");
    Files.FileTypeExtension("user-reviews", "csv");
    Files.FileTypeExtension("Market Research", "md");
    assert "Competitors" + "." + "csv" == "Competitors.csv";
    assert "Competitor-products" + "." + "csv" == "Competitor-products.csv";
    assert "user-reviews" + "." + "csv" == "user-reviews.csv";
    assert "Market Research" + "." + "md" == "Market Research.md";
  }

  /** The file actions of the five steps, upserted into an empty list. */
  lemma ScriptedFiles()
    ensures UpsertSteps([], InitialSteps()) ==
      [Files.FileRecord("Market Research.md", "md", Files.New),
       Files.FileRecord("user-reviews.csv", "csv", Files.New),
       Files.FileRecord("Competitor-products.csv", "csv", Files.Updated),
       Files.FileRecord("Competitors.csv", "csv", Files.New)]
  {
    InitialFileActions();
    UpsertFive(InitialSteps(), "Competitors.csv", "Competitor-products.csv", "user-reviews.csv", "Market Research.md");
    ScriptedFileTypes();
  }

  /**
   * From empty panels a run surfaces the sources s1 to s6 in step order and
   * leaves the files Market Research.md (new), user-reviews.csv (new),
   * Competitor-products.csv (updated: its second action moved it to the
   * front with the later status) and Competitors.csv (new), newest first.
   */
  lemma RunFromEmptyPanels(st: DemoState)
    requires st.message != "" && st.files == [] && st.sources == []
    ensures Runs(st, Script(st))
    ensures Run(st, Script(st)).sources ==
      [YcDirectory(), Competitor1Site(), Competitor2Site(),
       AcmePricingThread(), BetaUpdatePost(), AcmeOnboardingThread()]
    ensures Run(st, Script(st)).files ==
      [Files.FileRecord("Market Research.md", "md", Files.New),
       Files.FileRecord("user-reviews.csv", "csv", Files.New),
       Files.FileRecord("Competitor-products.csv", "csv", Files.Updated),
       Files.FileRecord("Competitors.csv", "csv", Files.New)]
  {
    RunOutcome(st);
    InitialStepsShape();
    ScriptedFiles();
  }

  /**
   * A run from the page as it opens: its default prompt, then the whole
   * answer with every step completed. The opening state is a parameter
   * pinned by the precondition rather than written as `InitialState()` in
   * the conclusion, so that the verifier does not evaluate the long script
   * and answer literals symbolically; the fact is the same.
   */
  lemma RunFromInitialState(st: DemoState)
    requires st == InitialState()
    ensures Runs(st, Script(st))
    ensures Run(st, Script(st)).chats ==
      [UserMessage(DefaultPrompt),
       Message(Assistant, FinalResponse, Some(AllCompleted(InitialSteps())), false, false)]
  {
    RunOutcome(st);
  }
}

=== FILE: sources.dfy ===
/** The sources panel of the demo page: source records and `addSources`. */
module Sources {
  import opened Optional

  datatype SourceKind = Web | Reddit | X | Database

  /** A source surfaced by a step; the optional icon is presentation and is not kept. */
  datatype Source = Source(id: string, title: string, url: Option<string>, kind: SourceKind)

  /**
   * `addSources(sources)`: the new sources go after the old ones; nothing is
   * removed, reordered or deduplicated.
   */
  function AddSources(prev: seq<Source>, found: seq<Source>): (r: seq<Source>)
    ensures |r| == |prev| + |found|
    ensures r[..|prev|] == prev
    ensures r[|prev|..] == found
  {
    prev + found
  }

  /** Two additions in a row add the two lists in that order. */
  lemma AddSourcesTwice(prev: seq<Source>, a: seq<Source>, b: seq<Source>)
    ensures AddSources(AddSources(prev, a), b) == AddSources(prev, a + b)
  {
  }
}

=== FILE: steps.dfy ===
/**
 * The process steps of the demo's assistant message: step records, partial
 * updates of a step, and the fixed five-step script every run reveals.
 */
module Steps {
  import opened Optional
  import opened Sources

  datatype Status = Pending | Running | Completed

  datatype ActionKind = Created | Updated

  /** The file a step creates or updates when it completes. */
  datatype FileAction = FileAction(kind: ActionKind, fileName: string)

  datatype Step = Step(
    id: string,
    title: string,
    subtext: string,
    fileAction: Option<FileAction>,
    sourceAction: Option<seq<Source>>,
    status: Status,
    url: Option<string>)

  /**
   * A `Partial<ProcessStep>` over the step's plain fields: each `Some` field
   * overwrites the step's field, each `None` field leaves it alone.
   */
  datatype StepPatch = StepPatch(
    id: Option<string>,
    title: Option<string>,
    subtext: Option<string>,
    status: Option<Status>)

  /** The patch `{ status: s }` the simulation loop uses. */
  function StatusPatch(s: Status): StepPatch
  {
    StepPatch(None, None, None, Some(s))
  }

  function Override<T>(field: T, update: Option<T>): T
  {
    match update
    case Some(v) => v
    case None => field
  }

  /** `{ ...step, ...patch }`. */
  function ApplyPatch(s: Step, p: StepPatch): (r: Step)
    ensures p.status.Some? ==> r.status == p.status.value
    ensures p.status.None? ==> r.status == s.status
    ensures p.id.Some? ==> r.id == p.id.value
    ensures p.id.None? ==> r.id == s.id
    ensures p.title.Some? ==> r.title == p.title.value
    ensures p.title.None? ==> r.title == s.title
    ensures p.subtext.Some? ==> r.subtext == p.subtext.value
    ensures p.subtext.None? ==> r.subtext == s.subtext
    ensures r.fileAction == s.fileAction && r.sourceAction == s.sourceAction && r.url == s.url
  {
    s.(id := Override(s.id, p.id),
       title := Override(s.title, p.title),
       subtext := Override(s.subtext, p.subtext),
       status := Override(s.status, p.status))
  }

  /** Applying the same patch twice is applying it once. */
  lemma ApplyPatchIdempotent(s: Step, p: StepPatch)
    ensures ApplyPatch(ApplyPatch(s, p), p) == ApplyPatch(s, p)
  {
  }

  /** Of two status patches in a row only the second is visible. */
  lemma StatusPatchLastWins(s: Step, a: Status, b: Status)
    ensures ApplyPatch(ApplyPatch(s, StatusPatch(a)), StatusPatch(b)) == s.(status := b)
  {
  }

  /** The statuses of a list of steps, in order. */
  function Statuses(steps: seq<Step>): (r: seq<Status>)
    ensures |r| == |steps|
    ensures forall k :: 0 <= k < |steps| ==> r[k] == steps[k].status
  {
    seq(|steps|, k requires 0 <= k < |steps| => steps[k].status)
  }

  /**
   * The statuses in the middle of a run of `n` steps: the first `k` done,
   * step `k` running when `running` holds, all later steps pending.
   */
  function Phase(n: nat, k: nat, running: bool): (r: seq<Status>)
    ensures |r| == n
  {
    seq(n, j => if j < k then Completed else if j == k && running then Running else Pending)
  }

  /** Starting step `k` of phase `(k, not running)` gives phase `(k, running)`. */
  lemma PhaseStart(n: nat, k: nat)
    requires k < n
    ensures Phase(n, k, false)[k := Running] == Phase(n, k, true)
  {
  }

  /** Completing the running step `k` gives phase `(k + 1, not running)`. */
  lemma PhaseComplete(n: nat, k: nat)
    requires k < n
    ensures Phase(n, k, true)[k := Completed] == Phase(n, k + 1, false)
  {
  }

  /** Each step with its status set to completed. */
  function AllCompleted(steps: seq<Step>): (r: seq<Step>)
    ensures |r| == |steps|
    ensures forall k :: 0 <= k < |steps| ==> r[k] == steps[k].(status := Completed)
  {
    seq(|steps|, k requires 0 <= k < |steps| => steps[k].(status := Completed))
  }

  /** The first `i` steps completed, the others as they were. */
  function CompletedUpTo(steps: seq<Step>, i: nat): (r: seq<Step>)
    ensures |r| == |steps|
  {
    seq(|steps|, k requires 0 <= k < |steps| => if k < i then steps[k].(status := Completed) else steps[k])
  }

  /** The sources the steps surface, step after step. */
  function SourcesOf(steps: seq<Step>): seq<Source>
  {
    if steps == [] then []
    else
      (match steps[0].sourceAction
       case Some(found) => found
       case None => []) + SourcesOf(steps[1..])
  }

  lemma {:induction false} SourcesOfAppend(a: seq<Step>, b: seq<Step>)
    ensures SourcesOf(a + b) == SourcesOf(a) + SourcesOf(b)
  {
    if a != [] {
      assert (a + b)[0] == a[0];
      assert (a + b)[1..] == a[1..] + b;
      SourcesOfAppend(a[1..], b);
    } else {
      assert a + b == b;
    }
  }

  // ---------------------------------------------------------------------------
  // The fixed script
  // ---------------------------------------------------------------------------

  function YcDirectory(): Source
  {
    Source("s1", "YC Startup Directory", Some("ycombinator.com/companies"), Database)
  }

  function Competitor1Site(): Source
  {
    Source("s2", "https://competitor1.com", Some("https://competitor1.com"), Web)
  }

  function Competitor2Site(): Source
  {
    Source("s3", "https://competitor2.com", Some("https://competitor2.com"), Web)
  }

  function AcmePricingThread(): Source
  {
    Source("s4", "Why is Acme Corp so expensive? - r/SaaS", Some("reddit.com"), Reddit)
  }

  /** The title ends in the four characters the file's text holds there, a mis-encoded rocket emoji. */
  function BetaUpdatePost(): Source
  {
    Source("s5", "Beta Inc just crushed it with the new update! \U{F0}\U{178}\U{161}\U{20AC}", Some("twitter.com"), X)
  }

  function AcmeOnboardingThread(): Source
  {
    Source("s6", "Anyone else having issues with Acme onboarding?", Some("reddit.com"), Reddit)
  }

  /** `initialSteps`: the five steps every run reveals, all pending. */
  function InitialSteps(): seq<Step>
  {
    [ Step("1", "Searched YC Startups directory about \"my niche\"", "Listed Competitors",
           Some(FileAction(Created, "Competitors.csv")), Some([YcDirectory()]), Pending, None),
      Step("2", "Browsing \"https://competitor1.com\"", "Listed 'Competitor Product'",
           Some(FileAction(Created, "Competitor-products.csv")), Some([Competitor1Site()]), Pending,
           Some("https://competitor1.com")),
      Step("3", "Browsing \"https://competitor2.com\"", "Listed 'Competitor Product 2'",
           Some(FileAction(Updated, "Competitor-products.csv")), Some([Competitor2Site()]), Pending,
           Some("https://competitor2.com")),
      Step("4", "Browsing X, Reddit for Competitor Products", "Listed 12000 Posts",
           Some(FileAction(Created, "user-reviews.csv")),
           Some([AcmePricingThread(), BetaUpdatePost(), AcmeOnboardingThread()]), Pending, None),
      Step("5", "Generating Research summary", "Generated Research summary",
           Some(FileAction(Created, "Market Research.md")), None, Pending, None) ]
  }

  /** The script has five steps, all pending, and together they surface sources s1 to s6 in order. */
  lemma InitialStepsShape()
    ensures |InitialSteps()| == 5
    ensures Statuses(InitialSteps()) == Phase(5, 0, false)
    ensures SourcesOf(InitialSteps()) ==
      [YcDirectory(), Competitor1Site(), Competitor2Site(),
       AcmePricingThread(), BetaUpdatePost(), AcmeOnboardingThread()]
  {
  }

  /** The file action of each of the five steps. */
  lemma InitialFileActions()
    ensures |InitialSteps()| == 5
    ensures InitialSteps()[0].fileAction == Some(FileAction(Created, "Competitors.csv"))
    ensures InitialSteps()[1].fileAction == Some(FileAction(Created, "Competitor-products.csv"))
    ensures InitialSteps()[2].fileAction == Some(FileAction(Updated, "Competitor-products.csv"))
    ensures InitialSteps()[3].fileAction == Some(FileAction(Created, "user-reviews.csv"))
    ensures InitialSteps()[4].fileAction == Some(FileAction(Created, "Market Research.md"))
  {
  }
}

=== FILE: streaming.dfy ===
/**
 * The simulated token streaming of the demo's final answer: the answer text
 * is revealed `ChunkSize` characters at a time, each step appending the next
 * slice to what has been shown so far.
 */
module Streaming {

  const ChunkSize: nat := 3

  /** The smaller of two integers. */
  function Min(a: int, b: int): (r: int)
    ensures r <= a && r <= b
    ensures r == a || r == b
  {
    if a <= b then a else b
  }

  /**
   * The values `streamedContent` takes in the loop `for (i; i < |text|; i += 3)`
   * when it enters at offset `i` having shown `acc`: each value is the previous
   * one followed by `text.slice(i, i + 3)`.
   */
  function Streamed(text: string, acc: string, i: nat): (r: seq<string>)
    ensures |r| == if i < |text| then (|text| - i + ChunkSize - 1) / ChunkSize else 0
    decreases |text| - i
  {
    if i >= |text| then []
    else
      var next := acc + text[i..Min(i + ChunkSize, |text|)];
      [next] + Streamed(text, next, i + ChunkSize)
  }

  /** Entering with the prefix shown so far, the `k`-th value is the prefix ending at chunk `k`. */
  lemma {:induction false} StreamedPrefixes(text: string, acc: string, i: nat)
    requires acc == text[..Min(i, |text|)]
    ensures forall k :: 0 <= k < |Streamed(text, acc, i)| ==>
      Streamed(text, acc, i)[k] == text[..Min(i + ChunkSize * (k + 1), |text|)]
    decreases |text| - i
  {
    if i < |text| {
      var j := Min(i + ChunkSize, |text|);
      var next := acc + text[i..j];
      assert next == text[..j];
      StreamedPrefixes(text, next, i + ChunkSize);
      var r := Streamed(text, acc, i);
      var rest := Streamed(text, next, i + ChunkSize);
      assert r == [next] + rest;
      forall k | 0 <= k < |r|
        ensures r[k] == text[..Min(i + ChunkSize * (k + 1), |text|)]
      {
        if k > 0 {
          assert r[k] == rest[k - 1];
        }
      }
    }
  }

  /** The values streamed for `text` from the start, with nothing shown yet. */
  function Stream(text: string): seq<string>
  {
    Streamed(text, "", 0)
  }

  /**
   * Streaming `text` from the start: one value per chunk, every value a
   * prefix of `text` one chunk (`min(3, remaining)` characters) longer than
   * the one before, the first holding the first chunk and the last the whole
   * text; an empty text streams nothing.
   */
  lemma StreamGrowsByChunks(text: string)
    ensures |Stream(text)| == (|text| + ChunkSize - 1) / ChunkSize
    ensures forall k :: 0 <= k < |Stream(text)| ==> Stream(text)[k] <= text
    ensures |Stream(text)| > 0 ==> |Stream(text)[0]| == Min(ChunkSize, |text|)
    ensures forall k :: 0 <= k < |Stream(text)| - 1 ==>
      && Stream(text)[k] <= Stream(text)[k + 1]
      && |Stream(text)[k + 1]| == |Stream(text)[k]| + Min(ChunkSize, |text| - |Stream(text)[k]|)
    ensures |Stream(text)| > 0 ==> Stream(text)[|Stream(text)| - 1] == text
    ensures text == "" <==> Stream(text) == []
  {
    var vs := Stream(text);
    assert "" == text[..Min(0, |text|)];
    StreamedPrefixes(text, "", 0);
    forall k | 0 <= k < |vs| - 1
      ensures vs[k] <= vs[k + 1] && |vs[k + 1]| == |vs[k]| + Min(ChunkSize, |text| - |vs[k]|)
    {
      assert vs[k] == text[..Min(ChunkSize * (k + 1), |text|)];
      assert vs[k + 1] == text[..Min(ChunkSize * (k + 2), |text|)];
    }
    if |vs| > 0 {
      var last := |vs| - 1;
      assert vs[last] == text[..Min(ChunkSize * (last + 1), |text|)];
      assert ChunkSize * (last + 1) >= |text|;
    }
  }

  /**
   * `finalResponse`: the markdown answer every run streams, as it stands
   * after `.trim()` removed the template's leading and trailing newline.
   */
  const FinalResponse: string :=
    "Based on the comprehensive research "
    + "from YC directory, competitor sites, "
    + "and social sentiment analysis "
    + "(Reddit/X), here is a summary of your "
    + "competitive landscape.\n"
    + "\n"
    + "**Key Competitors Identified:**\n"
    + "*   **Acme Corp**: Dominates the "
    + "enterprise segment. Strength in "
    + "reliability.\n"
    + "*   **Beta Inc**: Focusing on bottom-up "
    + "adoption. Very strong developer "
    + "community.\n"
    + "\n"
    + "**Product Gaps & Opportunities:**\n"
    + "Users on Reddit frequently complain "
    + "about the *complexity* of Acme's "
    + "onboarding. There is a clear opening "
    + "for a \"Simpler, Faster\" alternative "
    + "in this niche.\n"
    + "\n"
    + "**Action Plan:**\n"
    + "1.  Target the specific subreddit "
    + "threads identified in "
    + "`user-reviews.csv`.\n"
    + "2.  Launch a comparison landing page "
    + "highlighting \"Setup in 5 minutes\".\n"
    + "3.  Review the full breakdown in "
    + "**Market Research.md**."
}
